=== FILE: README.md ===
# E-commerce backend: payment reconciliation and controller rules in Dafny

This project models the request handlers of an Express/MongoDB shop backend.
Each handler is a pure transition over an in-memory store. The store is one
immutable map per collection: orders, products and users, keyed by document
id. Each transition returns the new store together with the HTTP reply.

The main subject is the payment-provider integration (`stripeController.js`):

- **Webhook routing.** The webhook sends each event type to its action.
- **Order key.** The order an event is about is resolved from the event's
  metadata: `mongoOrderId` first, then `orderId`.
- **Payment finalization.** `finalizeOrderPayment` marks the order paid and
  lowers stock once per order line, and only when enough stock is left. It
  first tries a database transaction. The transaction works on a staged copy
  of the store, which is either returned (commit) or dropped (abort). When no
  transaction is available, or the transaction aborts, a non-transactional
  fallback does the work instead.
- **Payment failure.** `markOrderFailed` records a failed payment, and only
  on an unpaid order.
- **Checkout.** The checkout-session endpoint builds a new order from a list
  of items.

The other controllers are modelled for their rules:

- **Orders.** Order creation with a product snapshot per line, a subtotal and
  a shipping threshold. Reading an order is allowed to its owner or an admin.
  An order can be marked delivered.
- **Users.** Registration refuses an email that is already taken. The
  wishlist never holds duplicates. An admin cannot delete their own account.
  An admin update keeps the fields the request leaves out.
- **Products.** Pagination arithmetic, the filter and sort built from a query
  string, one review per user, the update merge, and deletion.
- **Errors.** The error middleware maps a thrown error to a status and a
  message.

What the model takes as parameters:

- **Database failures.** These are the parameter `Infra`. It says whether a
  transaction session is available, whether the transaction throws, and
  whether the fallback throws.
- **The signature check.** This is the boolean `verified`.
- **The clock.** This is the integer `now`.
- **New document ids.** These are parameters, and the caller guarantees they
  are fresh.
- **The provider's checkout session.** This is an opaque id, or `None` when
  creating it failed.

A handler reply (`Common.Reply`) takes one of three forms:

- a value sent with a status;
- an error body the handler wrote itself (`Refused`);
- an error thrown to the error middleware with the status set so far
  (`Thrown`), where 200 means the handler set no status.

A handler that writes to the store returns a `Store.Outcome`: the new store
and its reply. `Errors.Respond` composes a reply with the middleware.

Files:

- **`common.dfy`**: options, replies and JavaScript coercions (`||`,
  `Number(x) || d`, truthiness).
- **`store.dfy`**: the documents and the store.
- **`inventory.dfy`**: the conditional stock decrement.
- **`stripe.dfy`**: payment webhook, finalization and checkout.
- **`stripe_properties.dfy`**: properties that relate several deliveries, and
  the webhook scenario of the repository's integration test.
- **`orders.dfy`**, **`users.dfy`**, **`products.dfy`**, **`errors.dfy`**: the
  other controllers and the error middleware.

## Model

| member | source | states |
|---|---|---|
| Common.FirstPresent | controllers/stripeController.js:198 | JavaScript `or` on optional strings: the first non-empty one, or nothing when neither is non-empty |
| Common.OrKeep | controllers/userController.js:116-117 | JavaScript `or` with the current value: a non-empty new value replaces, an absent or empty one keeps the current value |
| Common.NumberOr | controllers/productController.js:6-7 | `Number(x)` or a default: the number when it is non-zero, the default for 0 and NaN; never 0 when the default is not |
| Store.Subtotal | controllers/orderController.js:15-26 | the running sum of price times quantity; it is non-negative when every line's price and quantity are |
| Store.SubtotalCons | controllers/stripeController.js:44 | peeling off the first line gives the same subtotal as the left-to-right sum: a leading line adds its price times quantity to the subtotal of the rest |
| Inventory.Decrement | controllers/stripeController.js:240-247 | the guarded `$inc`: an existing product with stock >= qty loses exactly qty; otherwise the map is unchanged; only that product's stock field can change and no stock turns negative |
| Inventory.DecrementAll | controllers/stripeController.js:237-252 | all lines in turn: same products, only stock fields change, products no line mentions are untouched, non-negative stock stays non-negative, and with non-negative quantities no stock rises |
| Inventory.DecrementAllExactlyOnce | controllers/stripeController.js:308-321 | when the lines name distinct products that all have enough stock, each product ends exactly its line's quantity lower |
| Inventory.UnservableProductUntouched | controllers/stripeController.js:240-247 | a product every one of whose lines asks for more than its stock keeps its document unchanged, in an order of any length |
| Inventory.ApplyDecrements | controllers/stripeController.js:308-321 | the loop over the saved order's lines computes the same catalog as the fold `DecrementAll` |
| Stripe.OrderKey | controllers/stripeController.js:198 | the order key is `mongoOrderId` when non-empty, else `orderId` when non-empty, else there is none |
| Stripe.MetadataOf | controllers/stripeController.js:141 | the event's metadata, or the empty object when it has none, which names no order |
| Stripe.MarkPaid | controllers/stripeController.js:255-264 | a finalized order is paid, carries the incoming intent id, a `paid` payment result holding the raw event, and status `paid`; its items, prices, owner and delivery state are unchanged |
| Stripe.Settled | controllers/stripeController.js:236-264 | the intended end state: only the keyed order and the stock of products its lines mention change, the order is paid with this intent, users are untouched, stock stays non-negative |
| Stripe.TransactionalPath | controllers/stripeController.js:215-276 | the transaction aborts exactly when it fails on an existing unpaid order; a vanished or already-paid order commits nothing; a successful commit is the settled state |
| Stripe.FallbackPath | controllers/stripeController.js:281-321 | the fallback leaves the store as it is when it fails or the order is missing or paid, and otherwise reaches the settled state |
| Stripe.FinalizeOrderPayment | controllers/stripeController.js:197-327 | no key, an unknown order, an already-paid order (whatever intent) or a database on which both paths fail leave the store unchanged; an unpaid order on a working database ends in the settled state, whichever path ran |
| Stripe.MarkFailed | controllers/stripeController.js:182-189 | a failed payment result with the intent and raw event; paid flag, paid time, status, intent id and contents untouched |
| Stripe.MarkOrderFailed | controllers/stripeController.js:175-192 | only the keyed order can change and only if it is unpaid; no order's paid flag changes; products and users are untouched |
| Stripe.HandleWebhook | controllers/stripeController.js:129-170 | a failed verification is 400 with no effect; an unknown type is 200 with no effect; a handled type without `data.object` is 500 with no effect; the three handled types reach finalization with the intent's `id`, finalization with the session's `payment_intent`, and failure recording; users are never touched |
| Stripe.LineQty | controllers/stripeController.js:40 | the quantity or 1: a given non-zero quantity, else 1; never 0 |
| Stripe.CheckoutItems | controllers/stripeController.js:29-42 | fails exactly when some requested product is missing; otherwise one snapshot line per requested item, in order, with its product's name, image and price |
| Stripe.NewCheckoutOrder | controllers/stripeController.js:44-56 | the created order holds the snapshots, is priced at their subtotal for both item and total price, has no tax or shipping, is unpaid, and carries the merchant id, the user and a `created` payment result; it has no session id, intent id, paid time, status or delivery date yet |
| Stripe.WithSession | controllers/stripeController.js:91-92 | the order gains the session id and a `pending` payment result, and every other field is kept |
| Stripe.CreateAndAttach | controllers/stripeController.js:46-93 | a new order is saved under its fresh id next to every existing order, and keeps its contents whether or not the session is then created; with a session it also gains the session id |
| Stripe.AttachSession | controllers/stripeController.js:91-98 | with a session the order keeps its contents and gains the session id and a `pending` result, and the reply is the session id; without one the store is unchanged and the reply is 500 |
| Stripe.CreateCheckoutSession | controllers/stripeController.js:18-99 | an unknown `mongoOrderId` is 404 and missing or empty items are 400, both before any write; an unknown product is 500 with no write; an existing order gains the session id and a `pending` result and is otherwise untouched, and when no session can be created it is 500 with no write; a new order from known products is saved under the fresh id, owned by `user || null`, unpaid, priced at the sum of price times quantity, next to every existing order, and stays when the session cannot be created; the catalog and users never change |
| StripeProperties.FallbackMatchesTransaction | controllers/stripeController.js:266-321 | a committed transaction and the fallback on its own produce the same store |
| StripeProperties.AbortDiscardsStagedWrites | controllers/stripeController.js:272-276 | a transaction that throws leaves the same end state as never having opened one: nothing staged survives |
| StripeProperties.FinalizeIndependentOfPath | controllers/stripeController.js:215-321 | on any two databases where some path works, finalization ends in the same store |
| StripeProperties.SecondDeliveryIsNoOp | controllers/stripeController.js:210-234 | after a successful delivery, a second delivery for the same order, with the same or another intent id, changes nothing |
| StripeProperties.PaidOrderAbsorbsDeliveries | controllers/stripeController.js:229-234 | a paid order absorbs any sequence of further deliveries |
| StripeProperties.SettledAtMostOnce | controllers/stripeController.js:197-327 | any sequence of deliveries for an unpaid order ends in the order settled once, by the first delivery the database let through, or in the initial store |
| StripeProperties.StockDecrementedAtMostOnce | controllers/stripeController.js:236-252 | after any sequence of deliveries the catalog is either untouched or has had the order's decrements applied exactly once |
| StripeProperties.WebhookKeepsStockNonNegative | controllers/stripeController.js:240-244 | no webhook delivery drives a stock counter below zero |
| StripeProperties.ReplayKeepsStockNonNegative | controllers/stripeController.js:310-313 | nor does any sequence of deliveries of any event types |
| StripeProperties.OversoldLineStillFinalizes | controllers/stripeController.js:245-247 | in an order of any length, a product whose every line asks for more than its stock keeps its document unchanged and the order is still marked paid |
| StripeProperties.CheckoutThenPaymentSettles | controllers/stripeController.js:46-99 | a checkout that creates an order, followed by the payment event carrying the metadata that checkout sends to the provider, settles that very order: it is paid and the catalog has the order's decrements applied |
| StripeScenario.CheckoutCompletedScenario | test/orderStripe.test.js:146-189 | a checkout-completed event for two units of a product with four in stock answers 200, pays the order under `pi_test_123` and leaves two in stock; a redelivery changes nothing |
| Orders.ValidateItems | controllers/orderController.js:18-35 | validation succeeds exactly when every requested product exists, giving each line's snapshot; otherwise it names the first missing product |
| Orders.ShippingPrice | controllers/orderController.js:38 | shipping is free exactly above 1000 and costs 100 otherwise |
| Orders.TaxPrice | controllers/orderController.js:37 | the tax is exactly 18 hundredths of the subtotal, a whole number of hundredths (so two-decimal rounding keeps it), between 0 and the subtotal for a non-negative subtotal |
| Orders.NewOrder | controllers/orderController.js:37-51 | the saved order holds the lines, owned by the caller, priced at their subtotal with the tax and shipping rules, totalling their sum as a whole number of hundredths, unpaid and undelivered; it has no merchant id, intent id, session id, payment result, paid time, status or delivery date |
| Orders.AddOrderItems | controllers/orderController.js:5-55 | no items is 400 and an unknown product is 404, both with no order saved; a non-empty request of known products is 201 and saves, under the fresh id, exactly the order built from the snapshots: owned by the caller, priced at their subtotal, 18 % tax, shipping 0 above 1000 and 100 otherwise, the total of the three, unpaid and undelivered; the catalog and users never change |
| Orders.BuildOrderItems | controllers/orderController.js:15-35 | the lookup loop with its running total agrees with `ValidateItems`, and the total is the subtotal of the validated lines |
| Orders.FirstUnknownIsUnique | controllers/orderController.js:18-23 | the first missing product is the one reported |
| Orders.AllKnownIsValidated | controllers/orderController.js:18-35 | when every product exists, validation yields exactly the snapshots |
| Orders.Owner | controllers/orderController.js:59-62 | the populated owner exists exactly when the order has a user who still exists |
| Orders.GetOrderById | controllers/orderController.js:58-75 | a missing order is 404; an admin always receives the order; when the owner exists, the owner receives it and anyone else gets 400; a non-admin on an order whose owner cannot be populated gets 500 from the null dereference |
| Orders.GetMyOrders | controllers/orderController.js:78-81 | exactly the orders whose user is the caller |
| Orders.MyOrdersPartition | controllers/orderController.js:78-81 | two different users never see the same order in their lists, and an order with an owner is in that owner's list |
| Orders.UpdateOrderToDelivered | controllers/orderController.js:89-101 | a missing order is 404; otherwise only that order changes, and only in becoming delivered at `now`: every other field, payment state, prices, lines, owner and ids included, is kept |
| Users.RegisterUser | controllers/userController.js:6-33 | a taken email is 400 with no user created; otherwise exactly one new non-admin user with an empty wishlist is added and every other user is kept; distinct emails stay distinct |
| Users.SecondRegistrationRefused | controllers/userController.js:8-12 | after a successful registration, a second registration with the same email is refused with 400 and changes nothing |
| Users.AddToWishlist | controllers/userController.js:169-202 | a missing user or product is 404 and a product already listed is 400, all without change; an existing user adding an existing, unlisted product succeeds and the wishlist gains exactly that product; duplicate-free wishlists stay duplicate-free |
| Users.Pull | controllers/userController.js:215 | `pull` removes every occurrence of the product and keeps every other entry |
| Users.PullDistributes | controllers/userController.js:215 | removal from a concatenation is the concatenation of the removals |
| Users.PullKeepsOrder | controllers/userController.js:213-216 | entries that stay keep their relative order |
| Users.PullAppend | controllers/userController.js:215 | removing a just-appended product that was not listed before gives back the original list |
| Users.RemoveFromWishlist | controllers/userController.js:205-224 | a missing user is 400; otherwise the wishlist becomes the old one with every occurrence of the product pulled, only that user's wishlist changes, and duplicate-freedom is preserved |
| Users.AddThenRemoveRestores | controllers/userController.js:169-224 | adding a product to a wishlist and removing it again restores the store exactly |
| Users.DeleteUserByAdmin | controllers/userController.js:135-154 | a missing target is 404 and the caller as target is 400; the delete happens exactly otherwise, removes only that user, and the calling admin survives |
| Users.MergeUser | controllers/userController.js:116-118 | name and email are replaced only by non-empty values; `isAdmin` is kept when absent and otherwise set to its truthiness; password and wishlist are kept |
| Users.EmptyPatchIsIdentity | controllers/userController.js:116-118 | an empty request body leaves the user unchanged |
| Users.MergeUserIdempotent | controllers/userController.js:116-118 | applying the same update twice is applying it once |
| Users.UpdateUserByAdmin | controllers/userController.js:112-132 | a missing user is 404; otherwise only that user changes, to the merge, and the reply carries its id, name, email and admin flag but not its password or wishlist |
| Products.CeilDiv | controllers/productController.js:22 | `Math.ceil(a / b)`: the least multiple count covering `a`, for either sign of the divisor |
| Products.Window | controllers/productController.js:18-20 | `skip`/`limit` returns a contiguous run of the list starting at `skip`, of exactly the smaller of the absolute value of `limit` and the elements left after `skip`, empty when `skip` is past the list |
| Products.GetProducts | controllers/productController.js:4-23 | page size defaults to 10 and page to 1; the page is the window at size times (page - 1); pages is the ceiling of count over size; a negative skip is an error |
| Products.DefaultPageIsFirstTen | controllers/productController.js:6-7 | without paging arguments the reply is the first ten products, page 1 |
| Products.PagesCountNonEmptyPages | controllers/productController.js:17-22 | for a positive page size, page k is non-empty exactly when k <= pages |
| Products.PriceBounds | controllers/productController.js:39-47 | a price bound exists exactly for each non-empty argument and is its `Number()` value; with neither there is no price filter |
| Products.Matches | controllers/productController.js:25-47 | the empty filter matches every product; a category filter rejects other categories; a NaN price bound matches nothing |
| Products.DroppingAComponentWidens | controllers/productController.js:25-47 | each filter component only narrows: removing one keeps every product that matched |
| Products.Includes | controllers/productController.js:60 | `includes` holds exactly when the substring occurs at some position |
| Products.BeforeUnderscore | controllers/productController.js:59 | `split('_')[0]`: the longest prefix without an underscore |
| Products.ParseSort | controllers/productController.js:58-61 | the sort key is the text before the first `_`; the order is descending exactly when `_desc` occurs anywhere |
| Products.BuildQuery | controllers/productController.js:25-62 | category only when non-empty; a stock filter exactly when `inStock` is non-empty, in-stock exactly for `true`; the price bounds; a sort exactly when `sort` is non-empty; page and limit default to 1 and 10 |
| Products.Select | controllers/productController.js:55-65 | the selected products are exactly the catalog's products that match the filter |
| Products.SelectDistributes | controllers/productController.js:55-65 | selection keeps the catalog's order: selecting from two consecutive parts is selecting from each in turn |
| Products.NoPriceFilterWithoutBounds | controllers/productController.js:39-47 | with no price bound supplied, a product's price does not affect whether it is selected |
| Products.StockFiltersPartition | controllers/productController.js:34-37 | `inStock=true` and any other value select complementary sets of products |
| Products.SortDescendingExample | controllers/productController.js:58-61 | `price_desc` sorts on `price`, descending |
| Products.SortAscendingExample | controllers/productController.js:58-61 | `price_asc` sorts on `price`, ascending |
| Products.GetProductByQuery | controllers/productController.js:25-83 | a price bound that is not a number fails in the count before any page is read (500); otherwise a negative skip is an error, a non-empty page is returned with the total of matching products and the page count, an empty page is 404, and a skip inside the matches always gives a page |
| Products.CreateProductReview | controllers/productController.js:118-152 | a missing product is 404 and a second review by the same user is 400, both without change; a first review of an existing product succeeds with 201, and the product changes only by gaining exactly that review at the end and a `numReviews` equal to the new number of reviews; other products, orders and users are untouched; one-review-per-user is preserved |
| Products.SecondReviewRefused | controllers/productController.js:123-130 | after a user's review, that user's next review of the product is refused |
| Products.MergeProduct | controllers/productController.js:158-164 | price and stock are replaced whenever supplied, even by 0; name, description, image, brand and category only by non-empty values (the `OrKeep` rule); reviews are kept |
| Products.ZeroReplacesNumbersOnly | controllers/productController.js:158-164 | zero price and stock replace the old ones while an empty name does not |
| Products.MergeProductIdempotent | controllers/productController.js:158-164 | applying the same update twice is applying it once |
| Products.UpdateProductIdempotent | controllers/productController.js:155-173 | repeating an update request leaves the store and the reply as the first request left them |
| Products.UpdateProduct | controllers/productController.js:155-173 | a missing product is 404; otherwise only that product changes, to the merge |
| Products.DeleteProduct | controllers/productController.js:176-185 | a missing product is 404; otherwise exactly that product is removed with 202; orders and users are untouched |
| Errors.NotFound | middleware/errorHandler.js:3-7 | an unknown route sets 404 and forwards "Not found - " followed by the URL |
| Errors.ErrorHandler | middleware/errorHandler.js:11-26 | an ObjectId cast error is 404 with the fixed message; otherwise the message is the error's and a status of 200 becomes 500 while any other passes; the reply is never 200; the stack is hidden exactly in production |
| Errors.UnknownRouteIs404 | middleware/errorHandler.js:3-26 | an unknown route reaches the client as 404 naming the URL |
| Errors.Respond | utils/asyncHandler.js:5-6 | what a client receives: sent values as they are, self-written errors with their status, thrown errors through the handler |
| Errors.ThrownIsNeverOk | middleware/errorHandler.js:13 | a thrown error never reaches the client as 200; a status the handler set is kept |

## Left out

- The payment provider's SDK (`checkout.sessions.create`, `webhooks.constructEvent`) is foreign code. Signature verification, and the body parsing of test mode, are the boolean `verified`. The created session is an opaque id or `None`.
- The amount in the smallest currency unit and the `line_items` sent to the provider (stripeController.js lines 9-13 and 59-88) are floating-point rounding feeding a foreign call, and are not modelled.
- Concurrency is not modelled. Deliveries are sequential, so the race between the fast already-paid check and the transaction's re-read does not arise.
- A failing database is modelled as three booleans (`Infra`), not as individual operations failing. A per-line decrement that throws is caught and skipped in the source, which behaves like an unmet stock condition. In the transaction it may also doom the commit, which is `transactionFails`.
- Stripe.MarkOrderFailed: the conditional update (stripeController.js lines 179-191) is taken to succeed. If it throws, the error reaches the webhook's `catch` and the delivery is answered 500; the model answers 200.
- Stripe.FinalizeOrderPayment: the first order read (stripeController.js line 204) is outside any `try`. If it throws, the webhook answers 500. The model treats that read as reliable.
- Money is whole currency units. Tax is an exact rational 18 % of the subtotal, which the two-decimal `toFixed` rounding leaves unchanged for whole-unit prices. Non-integer prices, and the review rating average (floating point), are not modelled.
- Query numbers are integers or NaN. Fractional page sizes or bounds are not modelled. A NaN price bound makes the count fail with Mongoose's cast error, which reaches the error handler with no status set (500).
- A negative skip is modelled as an error from the database that reaches the error handler with no status set (500).
- Timestamps are the parameter `now`. Logging is not modelled.
- Authentication, JWT and password hashing are not modelled. The caller is a parameter. Registration stores the password as given.
- The handlers `loginUser`, `getUserProfile`, `updateUserProfile`, `getUsers`, `getUserById` and `getWishlist` are not modelled, and neither are `getOrders`, `getProductById`, `createProduct` and `getTopProducts`. These are authentication or plain reads. `updateUserProfile` reads a path parameter its route never supplies.
- The keyword regex of `getProducts` and the database's execution of a sort are not modelled. The listings take the matching products in the order the database returns them.
- Populated replies are not modelled. The wishlist replies return product ids, whereas the source returns the populated documents (which omit deleted products).
- Stripe.CreateCheckoutSession: a new order is saved with no owner when the request names no user (`user || null`), although the order schema requires `user` and `shippingAddress` (test/orderStripe.test.js line 128 says so); there `Order.create` throws and the request answers 500 with nothing written. The order schema is not part of this model.
- Orders.AddOrderItems: a request without `shippingAddress` is saved here, while the schema's required `shippingAddress` would make the save throw and the request end in 500. Shipping addresses and payment methods are not modelled.
- Schema validation on save is not modelled (required fields, a NaN rating, email format and lowercasing). Neither are Mongoose cast errors for malformed ids: an id is a string, and an unknown one is simply missing.
- `orderModel.js` and `productModel.js` are not part of this model. Their defaults are assumed: tax and shipping 0, not paid, not delivered, no reviews.
- `registerUser`'s "Invalid user data." branch is not modelled. It is unreachable once the create call returns a user.
- Routing is not modelled. The model covers the controller functions, not which URL reaches them.

=== FILE: common.dfy ===
/** Values and conventions shared by every controller: optional values, the
    reply an Express handler produces, and JavaScript truthiness. */
module Common {

  datatype Option<+T> = None | Some(value: T)

  /** What a controller hands back to Express.
      - `Sent`: the handler wrote a normal JSON body with this status.
      - `Refused`: the handler itself wrote an error body (`res.status(c).json({error})`).
      - `Thrown`: the handler threw; `status` is `res.statusCode` at that moment
        (200 when the handler never called `res.status`), and the error goes to
        the global error handler. */
  datatype Reply<+T> =
    | Sent(status: int, value: T)
    | Refused(status: int, message: string)
    | Thrown(status: int, message: string)

  /** A JSON request-body value, as far as JavaScript coercions are concerned.
      `Missing` is a key absent from the body (`undefined`); `Composite` is any
      array or object. */
  datatype JsValue = Missing | Null | Bool(b: bool) | Num(n: real) | Str(s: string) | Composite

  /** `Boolean(v)`: the truthiness JavaScript gives a value. */
  predicate Truthy(v: JsValue) {
    match v
    case Missing => false
    case Null => false
    case Bool(b) => b
    case Num(n) => n != 0.0
    case Str(s) => s != ""
    case Composite => true
  }

  /** Truthiness of a field that is either absent or a string. */
  predicate Present(s: Option<string>) {
    s.Some? && s.value != ""
  }

  /** `a || b` where both sides are optional strings: the first truthy one,
      or nothing when neither is truthy. */
  function FirstPresent(a: Option<string>, b: Option<string>): (r: Option<string>)
    ensures Present(r) <==> Present(a) || Present(b)
    ensures r.Some? ==> Present(r)
    ensures Present(a) ==> r == a
    ensures !Present(a) && Present(b) ==> r == b
  {
    if Present(a) then a else if Present(b) then b else None
  }

  /** `field || fallback` for a string field of a request body. */
  function OrKeep(field: Option<string>, current: string): (r: string)
    ensures Present(field) ==> r == field.value
    ensures !Present(field) ==> r == current
    ensures r == current || (field.Some? && r == field.value && r != "")
  {
    if Present(field) then field.value else current
  }

  /** The value `Number(x)` yields for a query-string argument, restricted to
      integers: `NaN` for anything that does not parse (including an absent
      argument), `Int(v)` otherwise (`Number("")` is `Int(0)`). */
  datatype Numeric = NaN | Int(v: int)

  /** `Number(x) || fallback`: NaN and 0 are falsy and give the fallback. */
  function NumberOr(n: Numeric, fallback: int): (r: int)
    ensures fallback != 0 ==> r != 0
    ensures n.Int? && n.v != 0 ==> r == n.v
    ensures (n.NaN? || n.v == 0) ==> r == fallback
  {
    match n
    case NaN => fallback
    case Int(v) => if v != 0 then v else fallback
  }

  /** `m[k]` read as an optional value. */
  function Get<K, V>(m: map<K, V>, k: K): (r: Option<V>)
    ensures r.Some? <==> k in m
    ensures r.Some? ==> r.value == m[k]
  {
    if k in m then Some(m[k]) else None
  }
}

=== FILE: errors.dfy ===
/** The two error middlewares: the catch-all for unknown routes and the
    global handler that turns a thrown error into a JSON response, and what
    a client receives for each kind of handler reply. */
module Errors {
  import opened Common

  /** The fields of a JavaScript error the handler reads. `kind` is set by
      Mongoose on cast errors. */
  datatype ErrorInfo = ErrorInfo(name: string, kind: Option<string>, message: string, stack: string)

  /** An error raised by `throw new Error(message)` in a handler. */
  function PlainError(message: string, stack: string): ErrorInfo {
    ErrorInfo("Error", None, message, stack)
  }

  /** A response as the client sees it: the status and, for an error, its
      message and (outside production) the stack. */
  datatype Response<+T> = Success(status: int, value: T) | Failure(status: int, message: string, stack: Option<string>)

  /** A Mongoose failure to cast a path parameter to an ObjectId. */
  predicate IsObjectIdCast(err: ErrorInfo) {
    err.name == "CastError" && err.kind == Some("ObjectId")
  }

  /** `notFound`: the status it sets and the error it forwards. */
  function NotFound(url: string, stack: string): (r: (int, ErrorInfo))
    ensures r.0 == 404
    ensures r.1.message == "Not found - " + url && !IsObjectIdCast(r.1)
  {
    (404, PlainError("Not found - " + url, stack))
  }

  /** `errorHandler`, given the status already set on the response and
      whether the process runs in production. */
  function ErrorHandler(statusCode: int, err: ErrorInfo, production: bool): (r: Response<()>)
    ensures r.Failure?
    ensures IsObjectIdCast(err) ==> r.status == 404 && r.message == "Resource not found (Invalid ID format)"
    ensures !IsObjectIdCast(err) ==> r.message == err.message
    ensures !IsObjectIdCast(err) && statusCode != 200 ==> r.status == statusCode
    ensures r.status != 200
    ensures r.stack.None? <==> production
    ensures !production ==> r.stack == Some(err.stack)
  {
    var status := if IsObjectIdCast(err) then 404 else if statusCode == 200 then 500 else statusCode;
    var message := if IsObjectIdCast(err) then "Resource not found (Invalid ID format)" else err.message;
    Failure(status, message, if production then None else Some(err.stack))
  }

  /** A request to an unknown route ends as a 404 naming the URL. */
  lemma UnknownRouteIs404(url: string, stack: string, production: bool)
    ensures var (status, err) := NotFound(url, stack);
            var r := ErrorHandler(status, err, production);
            r.status == 404 && r.message == "Not found - " + url
  {
  }

  /** What the client receives for a handler's reply: a sent value as is, an
      error the handler wrote itself with its status, and a thrown error
      through `errorHandler`. */
  function Respond<T>(reply: Reply<T>, stack: string, production: bool): (r: Response<T>)
    ensures reply.Sent? ==> r == Success(reply.status, reply.value)
    ensures reply.Refused? ==> r == Failure(reply.status, reply.message, None)
    ensures reply.Thrown? ==> r.Failure? && r.message == reply.message && (r.stack.None? <==> production)
    ensures reply.Thrown? ==> r.status == (if reply.status == 200 then 500 else reply.status)
  {
    match reply
    case Sent(status, value) => Success(status, value)
    case Refused(status, message) => Failure(status, message, None)
    case Thrown(status, message) =>
      match ErrorHandler(status, PlainError(message, stack), production)
      case Failure(st, msg, trace) => Failure(st, msg, trace)
  }

  /** A thrown error never reaches the client as a success: the status is
      the one the handler set, or 500 when it set none. */
  lemma ThrownIsNeverOk<T>(reply: Reply<T>, stack: string, production: bool)
    requires reply.Thrown?
    ensures Respond(reply, stack, production).status != 200
    ensures reply.status != 200 ==> Respond(reply, stack, production).status == reply.status
  {
  }
}

=== FILE: inventory.dfy ===
/** The conditional stock decrement the payment finalizer applies per order
    line: `updateOne({_id, countInStock: {$gte: qty}}, {$inc: {countInStock: -qty}})`.
    A line whose product is missing or short of stock leaves the catalog as it
    is, and processing goes on with the next line. */
module Inventory {
  import opened Store

  /** The decrement for one line applies: the product exists and has at least `qty` in stock. */
  predicate CanDecrement(products: map<Id, Product>, it: OrderItem) {
    it.product in products && products[it.product].countInStock >= it.qty
  }

  /** One conditional decrement. */
  function Decrement(products: map<Id, Product>, it: OrderItem): (r: map<Id, Product>)
    ensures r.Keys == products.Keys
    ensures forall id :: id in products && id != it.product ==> r[id] == products[id]
    ensures forall id :: id in products ==> r[id] == products[id].(countInStock := r[id].countInStock)
    ensures CanDecrement(products, it) ==>
      r[it.product].countInStock + it.qty == products[it.product].countInStock
    ensures !CanDecrement(products, it) ==> r == products
    ensures StockNonNegative(products) ==> StockNonNegative(r)
  {
    if CanDecrement(products, it) then
      var p := products[it.product];
      products[it.product := p.(countInStock := p.countInStock - it.qty)]
    else
      products
  }

  /** The decrements for all lines, applied one after another in line order. */
  function DecrementAll(products: map<Id, Product>, items: seq<OrderItem>): (r: map<Id, Product>)
    decreases |items|
    ensures r.Keys == products.Keys
    ensures forall id :: id in products && !Mentions(items, id) ==> r[id] == products[id]
    ensures forall id :: id in products ==> r[id] == products[id].(countInStock := r[id].countInStock)
    ensures StockNonNegative(products) ==> StockNonNegative(r)
    ensures (forall i :: 0 <= i < |items| ==> items[i].qty >= 0) ==>
      forall id :: id in products ==> r[id].countInStock <= products[id].countInStock
  {
    if items == [] then products
    else
      var rest := DecrementAll(Decrement(products, items[0]), items[1..]);
      assert forall id :: Mentions(items[1..], id) ==> Mentions(items, id) by {
        forall id | Mentions(items[1..], id)
          ensures Mentions(items, id)
        {
          var i :| 0 <= i < |items[1..]| && items[1..][i].product == id;
          assert items[i + 1].product == id;
        }
      }
      rest
  }

  /** The lines of an order name pairwise different products. */
  predicate DistinctProducts(items: seq<OrderItem>) {
    forall i, j :: 0 <= i < j < |items| ==> items[i].product != items[j].product
  }

  /** Every line can be served from the stock as it stands. */
  predicate AllInStock(products: map<Id, Product>, items: seq<OrderItem>) {
    forall i :: 0 <= i < |items| ==> CanDecrement(products, items[i])
  }

  /** When the lines name different products that all have enough stock,
      every line lowers its product's stock by exactly its quantity, once. */
  lemma {:induction false} DecrementAllExactlyOnce(products: map<Id, Product>, items: seq<OrderItem>, k: int)
    requires DistinctProducts(items) && AllInStock(products, items)
    requires 0 <= k < |items|
    ensures DecrementAll(products, items)[items[k].product].countInStock
            == products[items[k].product].countInStock - items[k].qty
    decreases |items|
  {
    var p0 := Decrement(products, items[0]);
    if k == 0 {
      assert !Mentions(items[1..], items[0].product) by {
        forall i | 0 <= i < |items[1..]|
          ensures items[1..][i].product != items[0].product
        {
          assert items[1..][i] == items[i + 1];
        }
      }
    } else {
      assert items[k] == items[1..][k - 1];
      assert items[k].product != items[0].product;
      assert AllInStock(p0, items[1..]) by {
        forall i | 0 <= i < |items[1..]|
          ensures CanDecrement(p0, items[1..][i])
        {
          assert items[1..][i] == items[i + 1];
          assert items[i + 1].product != items[0].product;
        }
      }
      assert DistinctProducts(items[1..]) by {
        forall i, j | 0 <= i < j < |items[1..]|
          ensures items[1..][i].product != items[1..][j].product
        {
          assert items[1..][i] == items[i + 1] && items[1..][j] == items[j + 1];
        }
      }
      DecrementAllExactlyOnce(p0, items[1..], k - 1);
    }
  }

  /** A product each of whose lines asks for more than it has in stock is
      left exactly as it was: each of its lines is skipped, and no other line
      touches it. */
  lemma {:induction false} UnservableProductUntouched(products: map<Id, Product>, items: seq<OrderItem>, id: Id)
    requires id in products
    requires forall i :: 0 <= i < |items| && items[i].product == id ==> items[i].qty > products[id].countInStock
    ensures DecrementAll(products, items)[id] == products[id]
    decreases |items|
  {
    if items != [] {
      var p0 := Decrement(products, items[0]);
      assert p0[id] == products[id];
      forall i | 0 <= i < |items[1..]| && items[1..][i].product == id
        ensures items[1..][i].qty > p0[id].countInStock
      {
        assert items[1..][i] == items[i + 1];
      }
      UnservableProductUntouched(p0, items[1..], id);
    }
  }

  /** The finalizer's loop over the order lines (one `updateOne` per line,
      warnings on a zero match are not modelled), as an iteration that agrees
      with `DecrementAll`. */
  method ApplyDecrements(products: map<Id, Product>, items: seq<OrderItem>) returns (r: map<Id, Product>)
    ensures r == DecrementAll(products, items)
  {
    r := products;
    var i := 0;
    while i < |items|
      invariant 0 <= i <= |items|
      invariant DecrementAll(r, items[i..]) == DecrementAll(products, items)
    {
      assert items[i..][1..] == items[i + 1..];
      r := Decrement(r, items[i]);
      i := i + 1;
    }
    assert items[i..] == [];
  }
}

=== FILE: orders.dfy ===
/** The order controller: placing an order from product ids and quantities,
    reading one order under the owner-or-admin rule, listing the caller's
    orders, and marking an order delivered. */
module Orders {
  import opened Common
  import opened Store

  /** The authenticated caller (`req.user`). */
  datatype Caller = Caller(id: Id, isAdmin: bool)

  /** One requested line: `{productId, qty}`. */
  datatype ItemRequest = ItemRequest(productId: Id, qty: int)

  /** The stored line for a request: the product's name, image, price and id
      as they are now, with the requested quantity. */
  function Snapshot(p: Product, req: ItemRequest): OrderItem {
    OrderItem(req.productId, p.name, p.image, p.price, req.qty)
  }

  /** Result of checking the requested lines against the catalog. */
  datatype Validation = Validated(items: seq<OrderItem>) | UnknownProduct(id: Id)

  /** The lines of the new order, or the first requested product that does not exist. */
  function ValidateItems(products: map<Id, Product>, reqs: seq<ItemRequest>): (v: Validation)
    ensures v.Validated? <==> forall i :: 0 <= i < |reqs| ==> reqs[i].productId in products
    ensures v.Validated? ==> |v.items| == |reqs|
    ensures v.Validated? ==> forall i :: 0 <= i < |reqs| ==> v.items[i] == Snapshot(products[reqs[i].productId], reqs[i])
    ensures v.UnknownProduct? ==> exists i :: 0 <= i < |reqs| && FirstUnknown(products, reqs, i) && v.id == reqs[i].productId
    decreases |reqs|
  {
    if reqs == [] then Validated([])
    else if reqs[0].productId !in products then
      assert FirstUnknown(products, reqs, 0);
      UnknownProduct(reqs[0].productId)
    else
      var rest := ValidateItems(products, reqs[1..]);
      assert forall i :: 1 <= i < |reqs| ==> reqs[i] == reqs[1..][i - 1];
      match rest
      case Validated(items) =>
        Validated([Snapshot(products[reqs[0].productId], reqs[0])] + items)
      case UnknownProduct(id) =>
        var i :| 0 <= i < |reqs[1..]| && FirstUnknown(products, reqs[1..], i) && id == reqs[1..][i].productId;
        assert FirstUnknown(products, reqs, i + 1);
        rest
  }

  /** Line `i` is the first whose product is missing. */
  predicate FirstUnknown(products: map<Id, Product>, reqs: seq<ItemRequest>, i: int) {
    && 0 <= i < |reqs|
    && reqs[i].productId !in products
    && forall j :: 0 <= j < i ==> reqs[j].productId in products
  }

  /** `itemPrice > 1000 ? 0 : 100` */
  function ShippingPrice(itemPrice: int): (r: int)
    ensures r == 0 <==> itemPrice > 1000
    ensures r == 0 || r == 100
  {
    if itemPrice > 1000 then 0 else 100
  }

  /** 18% of the subtotal. With whole-unit prices it is a whole number of
      hundredths, so the source's rounding to two decimals leaves it as it is. */
  function TaxPrice(itemPrice: int): (r: real)
    ensures r * 100.0 == (18 * itemPrice) as real
    ensures (r * 100.0).Floor as real == r * 100.0
    ensures itemPrice >= 0 ==> 0.0 <= r <= itemPrice as real
  {
    var cents := 18 * itemPrice;
    assert (cents as real).Floor == cents;
    cents as real / 100.0
  }

  /** The order saved by `addOrderItems` for validated lines. */
  function NewOrder(caller: Caller, items: seq<OrderItem>): (o: Order)
    ensures o.items == items && o.user == Some(caller.id)
    ensures o.itemPrice == Subtotal(items)
    ensures o.taxPrice == TaxPrice(o.itemPrice) && o.shippingPrice == ShippingPrice(o.itemPrice)
    ensures o.totalPrice == o.itemPrice as real + o.taxPrice + o.shippingPrice as real
    ensures (o.totalPrice * 100.0).Floor as real == o.totalPrice * 100.0
    ensures !o.isPaid && !o.isDelivered && o.paymentResult.None?
    ensures o.orderId.None? && o.stripePaymentIntentId.None? && o.stripeSessionId.None?
    ensures o.paidAt.None? && o.status.None? && o.deliveredAt.None?
  {
    var itemPrice := Subtotal(items);
    var tax := TaxPrice(itemPrice);
    var total := itemPrice as real + tax + ShippingPrice(itemPrice) as real;
    var cents := 118 * itemPrice + 100 * ShippingPrice(itemPrice);
    assert tax * 100.0 == (18 * itemPrice) as real;
    assert total * 100.0 == cents as real;
    assert (cents as real).Floor == cents;
    Order(user := Some(caller.id), orderId := None, items := items,
          itemPrice := itemPrice, taxPrice := tax, shippingPrice := ShippingPrice(itemPrice),
          totalPrice := total,
          isPaid := false, paidAt := None, stripePaymentIntentId := None, stripeSessionId := None,
          paymentResult := None, status := None, isDelivered := false, deliveredAt := None)
  }

  /** `addOrderItems`. `newId` is the id the database gives the new order. */
  function AddOrderItems(s: Store, caller: Caller, reqs: Option<seq<ItemRequest>>, newId: Id): (r: Outcome<Order>)
    requires newId !in s.orders
    ensures r.store.products == s.products && r.store.users == s.users
    ensures reqs.None? || |reqs.value| == 0 ==> r == Outcome(s, Thrown(400, "No items ordered."))
    ensures reqs.Some? && (exists i :: 0 <= i < |reqs.value| && reqs.value[i].productId !in s.products) ==>
      r.store == s && r.reply.Thrown? && r.reply.status == 404
    ensures !r.reply.Sent? ==> r.store == s
    ensures r.reply.Sent? ==>
      && reqs.Some? && |reqs.value| > 0
      && r.reply.status == 201
      && r.store.orders == s.orders[newId := r.reply.value]
      && var o := r.reply.value;
         && |o.items| == |reqs.value|
         && (forall i :: 0 <= i < |o.items| ==>
               reqs.value[i].productId in s.products
               && o.items[i] == Snapshot(s.products[reqs.value[i].productId], reqs.value[i]))
         && o.itemPrice == Subtotal(o.items)
         && (o.shippingPrice == 0 <==> o.itemPrice > 1000)
         && o.user == Some(caller.id)
         && !o.isPaid && !o.isDelivered
         && o == NewOrder(caller, o.items)
    ensures reqs.Some? && |reqs.value| > 0 && (forall i :: 0 <= i < |reqs.value| ==> reqs.value[i].productId in s.products) ==>
      r.reply.Sent? && newId in r.store.orders
  {
    if reqs.None? || |reqs.value| == 0 then
      Outcome(s, Thrown(400, "No items ordered."))
    else
      match ValidateItems(s.products, reqs.value)
      case UnknownProduct(id) => Outcome(s, Thrown(404, "Product not found: " + id))
      case Validated(items) =>
        var o := NewOrder(caller, items);
        Outcome(s.(orders := s.orders[newId := o]), Sent(201, o))
  }

  /** The loop of `addOrderItems` (one `findById` per line, a running
      subtotal, a pushed snapshot), agreeing with `ValidateItems` and `Subtotal`. */
  method BuildOrderItems(products: map<Id, Product>, reqs: seq<ItemRequest>) returns (v: Validation, itemPrice: int)
    ensures v == ValidateItems(products, reqs)
    ensures v.Validated? ==> itemPrice == Subtotal(v.items)
  {
    itemPrice := 0;
    var validated: seq<OrderItem> := [];
    var i := 0;
    while i < |reqs|
      invariant 0 <= i <= |reqs|
      invariant forall j :: 0 <= j < i ==> reqs[j].productId in products
      invariant |validated| == i
      invariant forall j :: 0 <= j < i ==> validated[j] == Snapshot(products[reqs[j].productId], reqs[j])
      invariant itemPrice == Subtotal(validated)
    {
      var item := reqs[i];
      if item.productId !in products {
        assert FirstUnknown(products, reqs, i);
        FirstUnknownIsUnique(products, reqs, i);
        return UnknownProduct(item.productId), itemPrice;
      }
      var product := products[item.productId];
      itemPrice := itemPrice + product.price * item.qty;
      var next := validated + [Snapshot(product, item)];
      assert next[..|next| - 1] == validated;
      validated := next;
      i := i + 1;
    }
    AllKnownIsValidated(products, reqs, validated);
    v := Validated(validated);
  }

  /** The first missing line fixes what `ValidateItems` reports. */
  lemma FirstUnknownIsUnique(products: map<Id, Product>, reqs: seq<ItemRequest>, i: int)
    requires FirstUnknown(products, reqs, i)
    ensures ValidateItems(products, reqs) == UnknownProduct(reqs[i].productId)
  {
    var v := ValidateItems(products, reqs);
    var k :| 0 <= k < |reqs| && FirstUnknown(products, reqs, k) && v.id == reqs[k].productId;
    assert k == i;
  }

  /** Lines that all exist validate to exactly their snapshots. */
  lemma AllKnownIsValidated(products: map<Id, Product>, reqs: seq<ItemRequest>, items: seq<OrderItem>)
    requires forall j :: 0 <= j < |reqs| ==> reqs[j].productId in products
    requires |items| == |reqs|
    requires forall j :: 0 <= j < |reqs| ==> items[j] == Snapshot(products[reqs[j].productId], reqs[j])
    ensures ValidateItems(products, reqs) == Validated(items)
  {
    var v := ValidateItems(products, reqs);
    assert v.items == items;
  }

  /** The populated owner of an order: its user id when that user still exists. */
  function Owner(s: Store, o: Order): (r: Option<Id>)
    ensures r.Some? <==> o.user.Some? && o.user.value in s.users
    ensures r.Some? ==> r == o.user
  {
    if o.user.Some? && o.user.value in s.users then o.user else None
  }

  /** `getOrderById`. A non-admin reading an order whose owner cannot be
      populated dereferences null; that TypeError reaches the error handler
      with the status still at 200. */
  function GetOrderById(s: Store, caller: Caller, id: Id): (r: Reply<Order>)
    ensures id !in s.orders ==> r == Thrown(404, "Order not found.")
    ensures r.Sent? ==> id in s.orders && r == Sent(200, s.orders[id])
    ensures id in s.orders && s.orders[id].user.Some? && s.orders[id].user.value in s.users ==>
      (r.Sent? <==> caller.isAdmin || s.orders[id].user == Some(caller.id))
    ensures id in s.orders && caller.isAdmin ==> r == Sent(200, s.orders[id])
    ensures id in s.orders && !caller.isAdmin && Owner(s, s.orders[id]).Some? && Owner(s, s.orders[id]).value != caller.id ==>
      r == Thrown(400, "Not authorized to view this order.")
    ensures id in s.orders && !caller.isAdmin && Owner(s, s.orders[id]).None? ==> r.Thrown? && r.status == 200
  {
    if id !in s.orders then
      Thrown(404, "Order not found.")
    else
      var o := s.orders[id];
      if caller.isAdmin then
        Sent(200, o)
      else
        match Owner(s, o)
        case None => Thrown(200, "Cannot read properties of null (reading '_id')")
        case Some(owner) =>
          if owner == caller.id then Sent(200, o)
          else Thrown(400, "Not authorized to view this order.")
  }

  /** The caller's own orders (`getMyOrders`). */
  function GetMyOrders(s: Store, caller: Caller): (r: map<Id, Order>)
    ensures forall id :: id in r <==> id in s.orders && s.orders[id].user == Some(caller.id)
    ensures forall id :: id in r ==> r[id] == s.orders[id]
  {
    map id | id in s.orders && s.orders[id].user == Some(caller.id) :: s.orders[id]
  }

  /** The callers' lists split the owned orders: two different callers never
      see the same order, and every order with an owner is in that owner's list. */
  lemma MyOrdersPartition(s: Store, a: Caller, b: Caller, id: Id)
    requires a.id != b.id
    ensures !(id in GetMyOrders(s, a) && id in GetMyOrders(s, b))
    ensures id in s.orders && s.orders[id].user.Some? ==>
      id in GetMyOrders(s, Caller(s.orders[id].user.value, a.isAdmin))
  {
  }

  /** `updateOrderToDelivered`. */
  function UpdateOrderToDelivered(s: Store, id: Id, now: int): (r: Outcome<Order>)
    ensures id !in s.orders ==> r == Outcome(s, Thrown(404, "Order not found."))
    ensures r.store.products == s.products && r.store.users == s.users
    ensures r.store.orders.Keys == s.orders.Keys
    ensures forall k :: k in s.orders && k != id ==> r.store.orders[k] == s.orders[k]
    ensures id in s.orders ==>
      && r.reply == Sent(200, r.store.orders[id])
      && r.store.orders[id].isDelivered
      && r.store.orders[id].deliveredAt == Some(now)
      && SamePayment(s.orders[id], r.store.orders[id])
      && r.store.orders[id].items == s.orders[id].items
      && r.store.orders[id].user == s.orders[id].user
      && r.store.orders[id] == s.orders[id].(isDelivered := true, deliveredAt := Some(now))
  {
    if id in s.orders then
      var o := s.orders[id].(isDelivered := true, deliveredAt := Some(now));
      Outcome(s.(orders := s.orders[id := o]), Sent(200, o))
    else
      Outcome(s, Thrown(404, "Order not found."))
  }
}

=== FILE: products.dfy ===
/** The product controller's rules: pagination arithmetic, the filter and
    sort built from a query string, one review per user, the update merge,
    and deletion.

    The database's part (keyword regex matching, ordering by an arbitrary
    field) is not modelled: listings take the matching products in the order
    the database returns them. */
module Products {
  import opened Common
  import opened Store

  /** `Math.ceil(a / b)` for a non-zero integer divisor. */
  function CeilDiv(a: int, b: int): (q: int)
    requires b != 0
    ensures b > 0 ==> (q - 1) * b < a <= q * b
    ensures b < 0 ==> q * b <= a < (q - 1) * b
  {
    if b > 0 then
      var d := (-a) / b;
      assert -a == b * d + (-a) % b;
      -d
    else
      var d := a / (-b);
      assert a == (-b) * d + a % (-b);
      -d
  }

  /** `skip(n).limit(m)` on a result list; a negative limit returns at most |m| documents. */
  function Window<T>(xs: seq<T>, skip: nat, limit: int): (r: seq<T>)
    ensures |r| <= (if limit < 0 then -limit else limit)
    ensures skip >= |xs| ==> r == []
    ensures forall i :: 0 <= i < |r| ==> skip + i < |xs| && r[i] == xs[skip + i]
    ensures skip < |xs| && limit != 0 ==> |r| > 0
    ensures var n := if limit < 0 then -limit else limit;
            skip <= |xs| ==> |r| == (if n < |xs| - skip then n else |xs| - skip)
  {
    var n := if limit < 0 then -limit else limit;
    if skip >= |xs| then []
    else if skip + n >= |xs| then xs[skip..]
    else xs[skip..skip + n]
  }

  /** The body of `getProducts`. */
  datatype Listing = Listing(products: seq<Product>, page: int, pages: int)

  /** `getProducts` over the products matching the keyword. A negative skip
      (a page number below 1 with a positive page size, or above 1 with a
      negative one) is refused by the database. */
  function GetProducts(matching: seq<Product>, pageSize: Numeric, pageNumber: Numeric): (r: Reply<Listing>)
    ensures var size := NumberOr(pageSize, 10);
            var page := NumberOr(pageNumber, 1);
            && (size * (page - 1) < 0 <==> r.Thrown?)
            && (r.Thrown? ==> r.status == 200)
            && (r.Sent? ==>
                 && r.status == 200
                 && r.value.page == page
                 && r.value.pages == CeilDiv(|matching|, size)
                 && r.value.products == Window(matching, size * (page - 1), size))
  {
    var size := NumberOr(pageSize, 10);
    var page := NumberOr(pageNumber, 1);
    var skip := size * (page - 1);
    if skip < 0 then
      Thrown(200, "skip value must be non-negative")
    else
      Sent(200, Listing(Window(matching, skip, size), page, CeilDiv(|matching|, size)))
  }

  /** Without paging arguments the first ten products are listed. */
  lemma DefaultPageIsFirstTen(matching: seq<Product>)
    ensures GetProducts(matching, NaN, NaN) == Sent(200, Listing(Window(matching, 0, 10), 1, CeilDiv(|matching|, 10)))
  {
  }

  /** The page count is exactly the number of non-empty pages: page `k >= 1`
      has products if and only if `k <= pages`. */
  lemma PagesCountNonEmptyPages(matching: seq<Product>, size: int, k: int)
    requires size > 0 && k >= 1
    ensures Window(matching, size * (k - 1), size) != [] <==> k <= CeilDiv(|matching|, size)
  {
    var q := CeilDiv(|matching|, size);
    if k <= q {
      assert size * (k - 1) <= size * (q - 1) by {
        MulMonotone(size, k - 1, q - 1);
      }
      assert (q - 1) * size == size * (q - 1);
    } else {
      assert size * q <= size * (k - 1) by {
        MulMonotone(size, q, k - 1);
      }
      assert q * size == size * q;
    }
  }

  lemma MulMonotone(c: int, x: int, y: int)
    requires c >= 0 && x <= y
    ensures c * x <= c * y
  {
    assert c * y - c * x == c * (y - x);
  }

  // ---------------------------------------------------------------------
  // getProductByQuery

  /** A numeric query argument: its text, and what `Number(text)` gives. */
  datatype NumberArg = NumberArg(text: string, value: Numeric)

  datatype PriceQuery = PriceQuery(gte: Option<NumberArg>, lte: Option<NumberArg>)

  /** The query string of `getProductByQuery`. `price` is None when absent or
      when it is a plain string (which has no `gte`/`lte`). */
  datatype ProductQuery = ProductQuery(
    category: Option<string>,
    inStock: Option<string>,
    price: Option<PriceQuery>,
    page: Numeric,
    limit: Numeric,
    sort: Option<string>)

  datatype StockFilter = InStock | OutOfStock

  /** The MongoDB filter: each component is absent or constrains one field. */
  datatype Filter = Filter(
    category: Option<string>,
    stock: Option<StockFilter>,
    minPrice: Option<Numeric>,
    maxPrice: Option<Numeric>)

  datatype SortSpec = SortSpec(key: string, descending: bool)

  /** Everything the handler hands to the database. */
  datatype QuerySpec = QuerySpec(filter: Filter, sort: Option<SortSpec>, page: int, limit: int, skip: int)

  predicate ArgPresent(a: Option<NumberArg>) {
    a.Some? && a.value.text != ""
  }

  /** Lines 41-46: a bound for each truthy argument, nothing otherwise. */
  function PriceBounds(q: Option<PriceQuery>): (r: (Option<Numeric>, Option<Numeric>))
    ensures r.0.Some? <==> q.Some? && ArgPresent(q.value.gte)
    ensures r.1.Some? <==> q.Some? && ArgPresent(q.value.lte)
    ensures r.0.Some? ==> r.0.value == q.value.gte.value.value
    ensures r.1.Some? ==> r.1.value == q.value.lte.value.value
  {
    match q
    case None => (None, None)
    case Some(pq) =>
      (if ArgPresent(pq.gte) then Some(pq.gte.value.value) else None,
       if ArgPresent(pq.lte) then Some(pq.lte.value.value) else None)
  }

  /** `sub` occurs in `s` at position `i`. */
  predicate OccursAt(s: string, sub: string, i: int) {
    0 <= i <= |s| - |sub| && s[i..i + |sub|] == sub
  }

  /** An occurrence past the first position is an occurrence in the tail. */
  lemma OccursInTail(s: string, sub: string)
    requires |s| > 0
    ensures forall i :: 1 <= i ==> (OccursAt(s, sub, i) <==> OccursAt(s[1..], sub, i - 1))
  {
    forall i | 1 <= i
      ensures OccursAt(s, sub, i) <==> OccursAt(s[1..], sub, i - 1)
    {
      if i <= |s| - |sub| {
        assert s[1..][i - 1..i - 1 + |sub|] == s[i..i + |sub|];
      }
    }
  }

  /** `s.includes(sub)`. */
  function Includes(s: string, sub: string): (r: bool)
    ensures r <==> exists i :: OccursAt(s, sub, i)
    decreases |s|
  {
    if |s| < |sub| then false
    else if s[..|sub|] == sub then
      assert OccursAt(s, sub, 0);
      true
    else
      OccursInTail(s, sub);
      assert !OccursAt(s, sub, 0);
      var rest := Includes(s[1..], sub);
      if rest then
        var i :| OccursAt(s[1..], sub, i);
        assert OccursAt(s, sub, i + 1);
        rest
      else
        rest
  }

  /** `s.split('_')[0]`: the text before the first underscore. */
  function BeforeUnderscore(s: string): (key: string)
    ensures |key| <= |s| && key == s[..|key|]
    ensures '_' !in key
    ensures |key| < |s| ==> s[|key|] == '_'
    decreases |s|
  {
    if s == [] || s[0] == '_' then []
    else [s[0]] + BeforeUnderscore(s[1..])
  }

  /** Lines 58-61: sort on the text before the first `_`, descending exactly
      when `_desc` occurs anywhere in the argument. */
  function ParseSort(s: string): (r: SortSpec)
    ensures r.key == BeforeUnderscore(s)
    ensures r.descending <==> exists i :: OccursAt(s, "_desc", i)
  {
    SortSpec(BeforeUnderscore(s), Includes(s, "_desc"))
  }

  /** The handler's construction of the filter, sort and paging. */
  function BuildQuery(q: ProductQuery): (spec: QuerySpec)
    ensures spec.filter.category == (if Present(q.category) then q.category else None)
    ensures spec.filter.stock.None? <==> !Present(q.inStock)
    ensures spec.filter.stock == Some(InStock) <==> q.inStock == Some("true")
    ensures (spec.filter.minPrice, spec.filter.maxPrice) == PriceBounds(q.price)
    ensures spec.sort.Some? <==> Present(q.sort)
    ensures spec.sort.Some? ==> spec.sort.value == ParseSort(q.sort.value)
    ensures spec.page == NumberOr(q.page, 1) && spec.limit == NumberOr(q.limit, 10)
    ensures spec.skip == (spec.page - 1) * spec.limit
  {
    var stock := if Present(q.inStock) then Some(if q.inStock.value == "true" then InStock else OutOfStock) else None;
    var bounds := PriceBounds(q.price);
    var page := NumberOr(q.page, 1);
    var limit := NumberOr(q.limit, 10);
    QuerySpec(
      Filter(if Present(q.category) then q.category else None, stock, bounds.0, bounds.1),
      if Present(q.sort) then Some(ParseSort(q.sort.value)) else None,
      page, limit, (page - 1) * limit)
  }

  /** `v >= bound` (resp. `<=`) for a bound given by `Number(...)`; a NaN bound matches no product. */
  predicate AtLeast(v: int, bound: Numeric) { bound.Int? && v >= bound.v }
  predicate AtMost(v: int, bound: Numeric) { bound.Int? && v <= bound.v }

  /** A product satisfies every component present in the filter. */
  function Matches(f: Filter, p: Product): (b: bool)
    ensures f == Filter(None, None, None, None) ==> b
    ensures f.category.Some? && p.category != f.category.value ==> !b
    ensures f.minPrice == Some(NaN) || f.maxPrice == Some(NaN) ==> !b
  {
    && (f.category.Some? ==> p.category == f.category.value)
    && (f.stock == Some(InStock) ==> p.countInStock > 0)
    && (f.stock == Some(OutOfStock) ==> p.countInStock == 0)
    && (f.minPrice.Some? ==> AtLeast(p.price, f.minPrice.value))
    && (f.maxPrice.Some? ==> AtMost(p.price, f.maxPrice.value))
  }

  /** Dropping a component from a filter only widens it: whatever the full
      filter matches, the filter without the category, the stock test or a
      price bound matches too. */
  lemma DroppingAComponentWidens(f: Filter, p: Product)
    requires Matches(f, p)
    ensures Matches(f.(category := None), p)
    ensures Matches(f.(stock := None), p)
    ensures Matches(f.(minPrice := None), p) && Matches(f.(maxPrice := None), p)
  {
  }

  /** The products a filter keeps, in their original order. */
  function Select(f: Filter, catalog: seq<Product>): (r: seq<Product>)
    ensures |r| <= |catalog|
    ensures forall i :: 0 <= i < |r| ==> Matches(f, r[i]) && r[i] in catalog
    ensures forall p :: p in catalog && Matches(f, p) ==> p in r
  {
    if catalog == [] then []
    else
      var rest := Select(f, catalog[1..]);
      if Matches(f, catalog[0]) then [catalog[0]] + rest else rest
  }

  /** Selection keeps the catalog's order: selecting from two consecutive
      parts of a catalog is selecting from each part in turn. */
  lemma {:induction false} SelectDistributes(f: Filter, a: seq<Product>, b: seq<Product>)
    ensures Select(f, a + b) == Select(f, a) + Select(f, b)
    decreases |a|
  {
    if a != [] {
      assert (a + b)[0] == a[0];
      assert (a + b)[1..] == a[1..] + b;
      SelectDistributes(f, a[1..], b);
    } else {
      assert a + b == b;
    }
  }

  /** A query without price bounds ignores prices: changing a product's
      price does not change whether it is selected. */
  lemma NoPriceFilterWithoutBounds(q: ProductQuery, p: Product, price: int)
    requires q.price.None? || (!ArgPresent(q.price.value.gte) && !ArgPresent(q.price.value.lte))
    ensures var f := BuildQuery(q).filter;
            Matches(f, p) <==> Matches(f, p.(price := price))
  {
  }

  /** With `inStock` given, every product is selected by exactly one of the
      two stock filters, "true" or any other value. */
  lemma StockFiltersPartition(q: ProductQuery, other: string, p: Product)
    requires other != "" && other != "true" && p.countInStock >= 0
    ensures var fIn := BuildQuery(q.(inStock := Some("true"))).filter.(category := None, minPrice := None, maxPrice := None);
            var fOut := BuildQuery(q.(inStock := Some(other))).filter.(category := None, minPrice := None, maxPrice := None);
            Matches(fIn, p) != Matches(fOut, p)
  {
  }

  /** A sort argument ending in `_desc` sorts descending on its prefix. */
  lemma SortDescendingExample()
    ensures ParseSort("price_desc") == SortSpec("price", true)
  {
    assert "price_desc"[5..10] == "_desc";
    assert OccursAt("price_desc", "_desc", 5);
    assert BeforeUnderscore("price_desc") == "price";
  }

  /** A text in which the first character of `sub` never appears early
      enough does not contain `sub`. */
  lemma NotIncludedWithoutFirstChar(s: string, sub: string)
    requires |sub| > 0
    requires forall i :: 0 <= i <= |s| - |sub| ==> s[i] != sub[0]
    ensures !exists i :: OccursAt(s, sub, i)
  {
    forall i | OccursAt(s, sub, i) ensures s[i] == sub[0] {
      assert s[i..i + |sub|][0] == s[i];
    }
  }

  /** Any other suffix sorts ascending. */
  lemma SortAscendingExample()
    ensures ParseSort("price_asc") == SortSpec("price", false)
  {
    assert BeforeUnderscore("price_asc") == "price";
    NotIncludedWithoutFirstChar("price_asc", "_desc");
  }

  /** The body of `getProductByQuery`. */
  datatype QueryListing = QueryListing(products: seq<Product>, totalItems: int, totalPages: int, currentPage: int)

  /** Whether a filter carries a price bound that is not a number; the
      database refuses to cast it. */
  predicate HasNaNBound(f: Filter) {
    f.minPrice == Some(NaN) || f.maxPrice == Some(NaN)
  }

  /** The message of Mongoose's cast error for a NaN price bound. */
  const PriceCastMessage := "Cast to Number failed for value \"NaN\" (type number) at path \"price\" for model \"Product\""

  /** `getProductByQuery` over the catalog as the database orders it for the
      requested sort. The count runs first, so a price bound that is not a
      number fails there, before the page is read; a negative skip fails on
      the page read; an empty page is a 404. */
  function GetProductByQuery(catalog: seq<Product>, q: ProductQuery): (r: Reply<QueryListing>)
    ensures var spec := BuildQuery(q);
            var selected := Select(spec.filter, catalog);
            && (HasNaNBound(spec.filter) ==> r == Thrown(200, PriceCastMessage))
            && (!HasNaNBound(spec.filter) && spec.skip < 0 ==> r.Thrown? && r.status == 200)
            && (r.Sent? ==>
                 && spec.skip >= 0
                 && !HasNaNBound(spec.filter)
                 && r.value.products == Window(selected, spec.skip, spec.limit)
                 && r.value.products != []
                 && r.value.totalItems == |selected|
                 && r.value.totalPages == CeilDiv(|selected|, spec.limit)
                 && r.value.currentPage == spec.page)
            && (!HasNaNBound(spec.filter) && spec.skip >= 0 && !r.Sent? ==> r == Thrown(404, "Products not found."))
            && (!HasNaNBound(spec.filter) && spec.skip >= 0 && spec.skip < |selected| ==> r.Sent?)
  {
    var spec := BuildQuery(q);
    var selected := Select(spec.filter, catalog);
    if HasNaNBound(spec.filter) then
      Thrown(200, PriceCastMessage)
    else if spec.skip < 0 then
      Thrown(200, "skip value must be non-negative")
    else
      var found := Window(selected, spec.skip, spec.limit);
      if |found| > 0 then
        Sent(200, QueryListing(found, |selected|, CeilDiv(|selected|, spec.limit), spec.page))
      else
        Thrown(404, "Products not found.")
  }

  // ---------------------------------------------------------------------
  // Reviews, update and delete

  /** The author of a review (`req.user`). */
  datatype Author = Author(id: Id, name: string)

  predicate AlreadyReviewed(p: Product, uid: Id) {
    exists i :: 0 <= i < |p.reviews| && p.reviews[i].user == uid
  }

  /** Each user has at most one review on the product. */
  predicate OneReviewPerUser(p: Product) {
    forall i, j :: 0 <= i < j < |p.reviews| ==> p.reviews[i].user != p.reviews[j].user
  }

  /** `createProductReview`. The rating average is not modelled. */
  function CreateProductReview(s: Store, id: Id, who: Author, rating: int, comment: string)
    : (r: Outcome<string>)
    ensures id !in s.products ==> r == Outcome(s, Thrown(404, "Product not found."))
    ensures id in s.products && AlreadyReviewed(s.products[id], who.id) ==>
      r == Outcome(s, Thrown(400, "Product already reviewd by this user."))
    ensures !r.reply.Sent? ==> r.store == s
    ensures r.reply.Sent? ==>
      && id in s.products && !AlreadyReviewed(s.products[id], who.id)
      && r.reply.status == 201
      && r.store.products.Keys == s.products.Keys
      && r.store.products[id].reviews == s.products[id].reviews + [Review(who.name, rating, comment, who.id)]
      && r.store.products[id].numReviews == |r.store.products[id].reviews|
      && r.store.products[id].countInStock == s.products[id].countInStock
      && r.store.products[id] == s.products[id].(reviews := s.products[id].reviews + [Review(who.name, rating, comment, who.id)],
                                                 numReviews := |s.products[id].reviews| + 1)
    ensures forall k :: k in s.products && k != id ==> k in r.store.products && r.store.products[k] == s.products[k]
    ensures id in s.products && !AlreadyReviewed(s.products[id], who.id) ==> r.reply.Sent?
    ensures r.store.orders == s.orders && r.store.users == s.users
    ensures id in s.products && OneReviewPerUser(s.products[id]) ==> OneReviewPerUser(r.store.products[id])
  {
    if id !in s.products then
      Outcome(s, Thrown(404, "Product not found."))
    else
      var p := s.products[id];
      if AlreadyReviewed(p, who.id) then
        Outcome(s, Thrown(400, "Product already reviewd by this user."))
      else
        var reviews := p.reviews + [Review(who.name, rating, comment, who.id)];
        var p' := p.(reviews := reviews, numReviews := |reviews|);
        Outcome(s.(products := s.products[id := p']), Sent(201, "Review added successfully."))
  }

  /** A user's second review of the same product is refused. */
  lemma SecondReviewRefused(s: Store, id: Id, who: Author, rating: int, comment: string,
                            rating2: int, comment2: string)
    requires id in s.products && !AlreadyReviewed(s.products[id], who.id)
    ensures var s1 := CreateProductReview(s, id, who, rating, comment).store;
            CreateProductReview(s1, id, who, rating2, comment2) == Outcome(s1, Thrown(400, "Product already reviewd by this user."))
  {
    var s1 := CreateProductReview(s, id, who, rating, comment).store;
    var n := |s.products[id].reviews|;
    assert s1.products[id].reviews[n].user == who.id;
  }

  /** The fields of an update request; absent fields are None. */
  datatype ProductPatch = ProductPatch(
    name: Option<string>,
    price: Option<int>,
    description: Option<string>,
    image: Option<string>,
    brand: Option<string>,
    category: Option<string>,
    countInStock: Option<int>)

  /** Lines 158-164: price and stock are replaced whenever supplied, even by
      0; the text fields only by a non-empty string. */
  function MergeProduct(p: Product, patch: ProductPatch): (r: Product)
    ensures patch.price.Some? ==> r.price == patch.price.value
    ensures patch.price.None? ==> r.price == p.price
    ensures patch.countInStock.Some? ==> r.countInStock == patch.countInStock.value
    ensures patch.countInStock.None? ==> r.countInStock == p.countInStock
    ensures r.name == OrKeep(patch.name, p.name)
    ensures r.description == OrKeep(patch.description, p.description)
    ensures r.image == OrKeep(patch.image, p.image)
    ensures r.brand == OrKeep(patch.brand, p.brand)
    ensures r.category == OrKeep(patch.category, p.category)
    ensures r.reviews == p.reviews && r.numReviews == p.numReviews
  {
    p.(name := OrKeep(patch.name, p.name),
       price := if patch.price.Some? then patch.price.value else p.price,
       description := OrKeep(patch.description, p.description),
       image := OrKeep(patch.image, p.image),
       brand := OrKeep(patch.brand, p.brand),
       category := OrKeep(patch.category, p.category),
       countInStock := if patch.countInStock.Some? then patch.countInStock.value else p.countInStock)
  }

  /** Zero is a value for price and stock but not a blank for names: an
      update `{price: 0, countInStock: 0, name: ""}` zeroes the numbers and
      keeps the name. */
  lemma ZeroReplacesNumbersOnly(p: Product)
    ensures var r := MergeProduct(p, ProductPatch(Some(""), Some(0), None, None, None, None, Some(0)));
            r.price == 0 && r.countInStock == 0 && r.name == p.name
  {
  }

  /** Applying the same update twice is applying it once. */
  lemma MergeProductIdempotent(p: Product, patch: ProductPatch)
    ensures MergeProduct(MergeProduct(p, patch), patch) == MergeProduct(p, patch)
  {
  }

  /** Sending the same update request twice leaves the store as the first
      request left it, and answers with the same product. */
  lemma UpdateProductIdempotent(s: Store, id: Id, patch: ProductPatch)
    ensures var r1 := UpdateProduct(s, id, patch);
            UpdateProduct(r1.store, id, patch) == r1
  {
    if id in s.products {
      MergeProductIdempotent(s.products[id], patch);
    }
  }

  /** `updateProduct`. */
  function UpdateProduct(s: Store, id: Id, patch: ProductPatch): (r: Outcome<Product>)
    ensures id !in s.products ==> r == Outcome(s, Thrown(404, "Product not found."))
    ensures id in s.products ==>
      && r.store.products == s.products[id := MergeProduct(s.products[id], patch)]
      && r.reply == Sent(200, r.store.products[id])
    ensures r.store.orders == s.orders && r.store.users == s.users
  {
    if id in s.products then
      var p' := MergeProduct(s.products[id], patch);
      Outcome(s.(products := s.products[id := p']), Sent(200, p'))
    else
      Outcome(s, Thrown(404, "Product not found."))
  }

  /** `deleteProduct`: orders and wishlists that mention the product keep it. */
  function DeleteProduct(s: Store, id: Id): (r: Outcome<string>)
    ensures id !in s.products ==> r == Outcome(s, Thrown(404, "Product not found."))
    ensures id in s.products ==> r.store.products == s.products - {id} && r.reply == Sent(202, "Product deleted successfully.")
    ensures r.store.orders == s.orders && r.store.users == s.users
  {
    if id in s.products then
      Outcome(s.(products := s.products - {id}), Sent(202, "Product deleted successfully."))
    else
      Outcome(s, Thrown(404, "Product not found."))
  }
}

=== FILE: store.dfy ===
/** The documents the controllers read and write, and the in-memory store
    that stands in for the database: one immutable map per collection. */
module Store {
  import opened Common

  /** A document id (`_id`), compared as its string form. */
  type Id = string

  datatype Review = Review(name: string, rating: int, comment: string, user: Id)

  /** A catalog product. Prices are whole currency units. */
  datatype Product = Product(
    name: string,
    price: int,
    description: string,
    image: string,
    brand: string,
    category: string,
    countInStock: int,
    reviews: seq<Review>,
    numReviews: int)

  /** One line of an order: the product's id, name, image and price copied
      when the order was created, and the quantity ordered. */
  datatype OrderItem = OrderItem(product: Id, name: string, image: string, price: int, qty: int)

  /** The object carried in a payment-provider event (`event.data.object`):
      a payment intent or a checkout session. It is also the raw payload kept
      in `paymentResult` for audit. */
  datatype EventObject = EventObject(
    id: Option<string>,
    paymentIntent: Option<string>,
    metadata: Option<map<string, string>>)

  datatype PaymentResult = PaymentResult(
    id: Option<string>,
    status: string,
    updateTime: Option<int>,
    raw: Option<EventObject>)

  datatype Order = Order(
    user: Option<Id>,
    orderId: Option<string>,
    items: seq<OrderItem>,
    itemPrice: int,
    taxPrice: real,
    shippingPrice: int,
    totalPrice: real,
    isPaid: bool,
    paidAt: Option<int>,
    stripePaymentIntentId: Option<string>,
    stripeSessionId: Option<string>,
    paymentResult: Option<PaymentResult>,
    status: Option<string>,
    isDelivered: bool,
    deliveredAt: Option<int>)

  datatype User = User(name: string, email: string, password: string, isAdmin: bool, wishlist: seq<Id>)

  datatype Store = Store(orders: map<Id, Order>, products: map<Id, Product>, users: map<Id, User>)

  /** The store after a handler ran, and what the handler replied. */
  datatype Outcome<+T> = Outcome(store: Store, reply: Reply<T>)

  /** Sum of `price * qty` over the lines, accumulated left to right as the
      handlers' loop and `reduce` do. Lines with non-negative prices and
      quantities never sum to a negative amount. */
  function Subtotal(items: seq<OrderItem>): (r: int)
    ensures (forall i :: 0 <= i < |items| ==> items[i].price >= 0 && items[i].qty >= 0) ==> r >= 0
  {
    if items == [] then 0
    else
      var last := items[|items| - 1];
      assert last.price >= 0 && last.qty >= 0 ==> last.price * last.qty >= 0;
      Subtotal(items[..|items| - 1]) + last.price * last.qty
  }

  /** The sum does not depend on the direction of accumulation: peeling off
      the first line gives the same total as the left-to-right loop. */
  lemma {:induction false} SubtotalCons(x: OrderItem, items: seq<OrderItem>)
    ensures Subtotal([x] + items) == x.price * x.qty + Subtotal(items)
    decreases |items|
  {
    if items == [] {
      assert ([x] + items)[..0] == [];
    } else {
      var n := |items|;
      assert ([x] + items)[..n] == [x] + items[..n - 1];
      SubtotalCons(x, items[..n - 1]);
    }
  }

  /** No product has a negative stock counter. */
  ghost predicate StockNonNegative(products: map<Id, Product>) {
    forall id :: id in products ==> products[id].countInStock >= 0
  }

  /** Some line of the order refers to product `id`. */
  predicate Mentions(items: seq<OrderItem>, id: Id) {
    exists i :: 0 <= i < |items| && items[i].product == id
  }

  /** Everything about an order except its payment state is the same. */
  ghost predicate SameContents(o: Order, o': Order) {
    && o'.user == o.user
    && o'.orderId == o.orderId
    && o'.items == o.items
    && o'.itemPrice == o.itemPrice
    && o'.taxPrice == o.taxPrice
    && o'.shippingPrice == o.shippingPrice
    && o'.totalPrice == o.totalPrice
    && o'.stripeSessionId == o.stripeSessionId
    && o'.isDelivered == o.isDelivered
    && o'.deliveredAt == o.deliveredAt
  }

  /** The payment state of two orders is the same. */
  ghost predicate SamePayment(o: Order, o': Order) {
    && o'.isPaid == o.isPaid
    && o'.paidAt == o.paidAt
    && o'.stripePaymentIntentId == o.stripePaymentIntentId
    && o'.paymentResult == o.paymentResult
    && o'.status == o.status
  }

}

=== FILE: stripe.dfy ===
/** The payment-provider integration: the webhook's event routing, the order
    key carried in event metadata, payment finalization (a transaction with a
    non-transactional fallback), failure recording, and the order the
    checkout-session endpoint builds from a list of items.

    The database is the immutable `Store`; a transaction works on a copy of
    it that is either returned (commit) or dropped (abort). Failures of the
    database are injected through `Infra`; the signature check is the boolean
    `verified`; the clock is the integer `now`. */
module Stripe {
  import opened Common
  import opened Store
  import opened Inventory

  const PaymentIntentSucceeded := "payment_intent.succeeded"
  const CheckoutSessionCompleted := "checkout.session.completed"
  const PaymentIntentFailed := "payment_intent.payment_failed"

  /** `metadata.mongoOrderId || metadata.orderId`: the order an event is about,
      if the metadata names one with a non-empty id. */
  function OrderKey(meta: map<string, string>): (key: Option<Id>)
    ensures key.Some? <==> Present(Get(meta, "mongoOrderId")) || Present(Get(meta, "orderId"))
    ensures key.Some? ==> key.value != ""
    ensures Present(Get(meta, "mongoOrderId")) ==> key == Get(meta, "mongoOrderId")
    ensures !Present(Get(meta, "mongoOrderId")) && key.Some? ==> key == Get(meta, "orderId")
  {
    FirstPresent(Get(meta, "mongoOrderId"), Get(meta, "orderId"))
  }

  /** `object.metadata || {}`: an event without metadata names no order. */
  function MetadataOf(obj: EventObject): (m: map<string, string>)
    ensures obj.metadata.Some? ==> m == obj.metadata.value
    ensures obj.metadata.None? ==> m == map[] && OrderKey(m).None?
  {
    if obj.metadata.Some? then obj.metadata.value else map[]
  }

  /** The payment fields a finalized order carries; nothing else about the order changes. */
  function MarkPaid(o: Order, intent: Option<string>, raw: EventObject, now: int): (r: Order)
    ensures r.isPaid && r.paidAt == Some(now) && r.stripePaymentIntentId == intent
    ensures r.paymentResult == Some(PaymentResult(intent, "paid", Some(now), Some(raw)))
    ensures r.status == Some("paid")
    ensures SameContents(o, r)
  {
    o.(isPaid := true,
       paidAt := Some(now),
       stripePaymentIntentId := intent,
       paymentResult := Some(PaymentResult(intent, "paid", Some(now), Some(raw))),
       status := Some("paid"))
  }

  /** The intended end state of finalizing order `key`: the order is paid with
      this intent and each of its lines has had its conditional decrement. */
  function Settled(s: Store, key: Id, intent: Option<string>, raw: EventObject, now: int): (r: Store)
    requires key in s.orders
    ensures r.users == s.users
    ensures r.orders.Keys == s.orders.Keys && r.products.Keys == s.products.Keys
    ensures forall id :: id in s.orders && id != key ==> r.orders[id] == s.orders[id]
    ensures r.orders[key].isPaid && r.orders[key].stripePaymentIntentId == intent
    ensures r.orders[key].paymentResult == Some(PaymentResult(intent, "paid", Some(now), Some(raw)))
    ensures SameContents(s.orders[key], r.orders[key])
    ensures forall id :: id in s.products && !Mentions(s.orders[key].items, id) ==> r.products[id] == s.products[id]
    ensures StockNonNegative(s.products) ==> StockNonNegative(r.products)
  {
    s.(orders := s.orders[key := MarkPaid(s.orders[key], intent, raw, now)],
       products := DecrementAll(s.products, s.orders[key].items))
  }

  /** How the database behaves during one finalization. */
  datatype Infra = Infra(
    sessionAvailable: bool,   // `mongoose.startSession()` resolves
    transactionFails: bool,   // a write, the save or the commit inside the transaction throws
    fallbackFails: bool)      // the fallback's read or save throws

  /** At least one of the two paths can complete. */
  predicate Healthy(infra: Infra) {
    (infra.sessionAvailable && !infra.transactionFails) || !infra.fallbackFails
  }

  /** The result of the transactional attempt: either a final store (committed,
      or aborted with nothing to do) or an abort after a failure, which drops
      everything staged and hands over to the fallback. */
  datatype TxOutcome = Finished(store: Store) | Aborted

  /** The transactional path: re-read the order inside the transaction, stop
      if it disappeared or is already paid, otherwise stage the decrements and
      the paid fields on a copy of the store and commit the copy. */
  function TransactionalPath(s: Store, key: Id, intent: Option<string>, raw: EventObject, now: int, fails: bool)
    : (t: TxOutcome)
    ensures t.Aborted? <==> fails && key in s.orders && !s.orders[key].isPaid
    ensures t.Finished? && (key !in s.orders || s.orders[key].isPaid) ==> t.store == s
    ensures t.Finished? && key in s.orders && !s.orders[key].isPaid ==> t.store == Settled(s, key, intent, raw, now)
  {
    if key !in s.orders then
      Finished(s)
    else
      var inTx := s.orders[key];
      if inTx.isPaid then
        Finished(s)
      else
        // The writes go to a staged copy, which only the commit hands back.
        var decremented := s.(products := DecrementAll(s.products, inTx.items));
        var staged := decremented.(orders := decremented.orders[key := MarkPaid(inTx, intent, raw, now)]);
        if fails then Aborted else Finished(staged)
  }

  /** The non-transactional fallback: re-read the order, stop if it is gone or
      already paid, save the paid fields, then run the decrements over the
      saved order's lines. */
  function FallbackPath(s: Store, key: Id, intent: Option<string>, raw: EventObject, now: int, fails: bool)
    : (r: Store)
    ensures fails || key !in s.orders || s.orders[key].isPaid ==> r == s
    ensures !fails && key in s.orders && !s.orders[key].isPaid ==> r == Settled(s, key, intent, raw, now)
  {
    if fails || key !in s.orders then
      s
    else
      var doc := s.orders[key];
      if doc.isPaid then
        s
      else
        var saved := MarkPaid(doc, intent, raw, now);
        var afterSave := s.(orders := s.orders[key := saved]);
        afterSave.(products := DecrementAll(afterSave.products, saved.items))
  }

  /** `finalizeOrderPayment`: resolve the order key, skip a duplicate of the
      delivery that already paid the order, then try the transactional path
      and fall back when it is unavailable or aborts. Every failure is
      absorbed: the result is the store as it ends up. */
  function FinalizeOrderPayment(s: Store, intent: Option<string>, meta: map<string, string>,
                                raw: EventObject, now: int, infra: Infra): (r: Store)
    ensures OrderKey(meta).None? ==> r == s
    ensures OrderKey(meta).Some? && OrderKey(meta).value !in s.orders ==> r == s
    ensures OrderKey(meta).Some? && OrderKey(meta).value in s.orders && s.orders[OrderKey(meta).value].isPaid ==> r == s
    ensures !Healthy(infra) ==> r == s
    ensures (OrderKey(meta).Some? && OrderKey(meta).value in s.orders && !s.orders[OrderKey(meta).value].isPaid
             && Healthy(infra)) ==> r == Settled(s, OrderKey(meta).value, intent, raw, now)
  {
    match OrderKey(meta)
    case None => s
    case Some(key) =>
      if key !in s.orders then
        s
      else if s.orders[key].isPaid && s.orders[key].stripePaymentIntentId == intent then
        s
      else
        var attempt := if infra.sessionAvailable then TransactionalPath(s, key, intent, raw, now, infra.transactionFails)
                       else Aborted;
        match attempt
        case Finished(s') => s'
        case Aborted => FallbackPath(s, key, intent, raw, now, infra.fallbackFails)
  }

  /** The payment-failed outcome recorded on an order. */
  function MarkFailed(o: Order, intent: Option<string>, raw: EventObject, now: int): (r: Order)
    ensures r.paymentResult == Some(PaymentResult(intent, "failed", Some(now), Some(raw)))
    ensures SameContents(o, r)
    ensures r.isPaid == o.isPaid && r.paidAt == o.paidAt && r.status == o.status
    ensures r.stripePaymentIntentId == o.stripePaymentIntentId
  {
    o.(paymentResult := Some(PaymentResult(intent, "failed", Some(now), Some(raw))))
  }

  /** `markOrderFailed`: a conditional update matched on the order key and
      `isPaid: false`. Paid orders, unknown keys and the catalog are untouched. */
  function MarkOrderFailed(s: Store, intent: Option<string>, meta: map<string, string>, raw: EventObject, now: int)
    : (r: Store)
    ensures r.products == s.products && r.users == s.users
    ensures r.orders.Keys == s.orders.Keys
    ensures forall id :: id in s.orders && r.orders[id] != s.orders[id] ==>
      OrderKey(meta) == Some(id) && !s.orders[id].isPaid
    ensures forall id :: id in s.orders ==> (r.orders[id].isPaid <==> s.orders[id].isPaid)
    ensures OrderKey(meta).Some? && OrderKey(meta).value in s.orders && !s.orders[OrderKey(meta).value].isPaid ==>
      r.orders[OrderKey(meta).value] == MarkFailed(s.orders[OrderKey(meta).value], intent, raw, now)
  {
    match OrderKey(meta)
    case None => s
    case Some(key) =>
      if key in s.orders && !s.orders[key].isPaid then
        s.(orders := s.orders[key := MarkFailed(s.orders[key], intent, raw, now)])
      else
        s
  }

  /** A parsed provider event: its `type` and its `data.object` (the field `data`). */
  datatype Event = Event(kind: Option<string>, data: Option<EventObject>)

  /** The store after a delivery and the HTTP status sent back. */
  datatype WebhookReply = WebhookReply(store: Store, status: int)

  predicate Handled(ev: Event) {
    ev.kind == Some(PaymentIntentSucceeded) || ev.kind == Some(CheckoutSessionCompleted)
    || ev.kind == Some(PaymentIntentFailed)
  }

  /** `stripeWebhookHandler`. `verified` is the outcome of the signature check
      (or of parsing the body in test mode). A handled event type whose
      `data.object` is missing raises a TypeError, answered with 500. */
  function HandleWebhook(s: Store, verified: bool, ev: Event, now: int, infra: Infra): (r: WebhookReply)
    ensures !verified ==> r == WebhookReply(s, 400)
    ensures verified && !Handled(ev) ==> r == WebhookReply(s, 200)
    ensures r.status == 500 <==> verified && Handled(ev) && ev.data.None?
    ensures r.status != 200 ==> r.store == s
    ensures r.store.users == s.users
    ensures verified && ev.kind == Some(PaymentIntentSucceeded) && ev.data.Some? ==>
      r == WebhookReply(FinalizeOrderPayment(s, ev.data.value.id, MetadataOf(ev.data.value), ev.data.value, now, infra), 200)
    ensures verified && ev.kind == Some(CheckoutSessionCompleted) && ev.data.Some? ==>
      r == WebhookReply(FinalizeOrderPayment(s, ev.data.value.paymentIntent, MetadataOf(ev.data.value), ev.data.value, now, infra), 200)
    ensures verified && ev.kind == Some(PaymentIntentFailed) && ev.data.Some? ==>
      r == WebhookReply(MarkOrderFailed(s, ev.data.value.id, MetadataOf(ev.data.value), ev.data.value, now), 200)
  {
    if !verified then
      WebhookReply(s, 400)
    else if !Handled(ev) then
      WebhookReply(s, 200)
    else if ev.data.None? then
      WebhookReply(s, 500)
    else
      var obj := ev.data.value;
      if ev.kind == Some(PaymentIntentSucceeded) then
        WebhookReply(FinalizeOrderPayment(s, obj.id, MetadataOf(obj), obj, now, infra), 200)
      else if ev.kind == Some(CheckoutSessionCompleted) then
        WebhookReply(FinalizeOrderPayment(s, obj.paymentIntent, MetadataOf(obj), obj, now, infra), 200)
      else
        WebhookReply(MarkOrderFailed(s, obj.id, MetadataOf(obj), obj, now), 200)
  }

  // ---------------------------------------------------------------------
  // Checkout session: the order built from `items`

  /** One entry of the request's `items`: a product id and an optional quantity. */
  datatype CheckoutLine = CheckoutLine(product: Id, qty: Option<int>)

  datatype CheckoutRequest = CheckoutRequest(
    mongoOrderId: Option<string>,
    orderId: Option<string>,
    items: Option<seq<CheckoutLine>>,   // None: missing or not an array
    user: Option<Id>)

  /** `it.qty || 1` */
  function LineQty(q: Option<int>): (n: int)
    ensures n != 0
    ensures q.Some? && q.value != 0 ==> n == q.value
  {
    if q.Some? && q.value != 0 then q.value else 1
  }

  /** The order lines built from the request: each a snapshot of its product,
      or None when some product does not exist (the map callback throws). */
  function CheckoutItems(products: map<Id, Product>, lines: seq<CheckoutLine>): (r: Option<seq<OrderItem>>)
    ensures r.None? <==> exists i :: 0 <= i < |lines| && lines[i].product !in products
    ensures r.Some? ==> |r.value| == |lines|
    ensures r.Some? ==> forall i :: 0 <= i < |lines| ==>
      var p := products[lines[i].product];
      r.value[i] == OrderItem(lines[i].product, p.name, p.image, p.price, LineQty(lines[i].qty))
  {
    if lines == [] then Some([])
    else
      var first := lines[0];
      var rest := CheckoutItems(products, lines[1..]);
      if first.product !in products then
        None
      else if rest.None? then
        assert exists i :: 0 <= i < |lines[1..]| && lines[1..][i].product !in products;
        var i :| 0 <= i < |lines[1..]| && lines[1..][i].product !in products;
        assert lines[i + 1].product !in products;
        None
      else
        var p := products[first.product];
        var r := [OrderItem(first.product, p.name, p.image, p.price, LineQty(first.qty))] + rest.value;
        assert forall i :: 1 <= i < |lines| ==> lines[i] == lines[1..][i - 1];
        Some(r)
  }

  /** The order `Order.create` stores for a new checkout: unpaid, priced at
      the sum of its lines. Tax and shipping take their schema defaults. */
  function NewCheckoutOrder(items: seq<OrderItem>, orderId: string, user: Option<Id>): (o: Order)
    ensures o.items == items && o.orderId == Some(orderId) && o.user == user
    ensures o.itemPrice == Subtotal(items) && o.totalPrice == o.itemPrice as real
    ensures o.taxPrice == 0.0 && o.shippingPrice == 0
    ensures !o.isPaid && o.paidAt.None? && o.stripePaymentIntentId.None? && !o.isDelivered
    ensures o.paymentResult == Some(PaymentResult(None, "created", None, None))
    ensures o.stripeSessionId.None? && o.status.None? && o.deliveredAt.None?
  {
    Order(user := user, orderId := Some(orderId), items := items,
          itemPrice := Subtotal(items), taxPrice := 0.0, shippingPrice := 0,
          totalPrice := Subtotal(items) as real,
          isPaid := false, paidAt := None, stripePaymentIntentId := None, stripeSessionId := None,
          paymentResult := Some(PaymentResult(None, "created", None, None)), status := None,
          isDelivered := false, deliveredAt := None)
  }

  /** The payment state of an order whose checkout session was created. */
  function WithSession(o: Order, session: Id): (r: Order)
    ensures r.stripeSessionId == Some(session)
    ensures r.paymentResult == Some(PaymentResult(None, "pending", None, None))
    ensures r.isPaid == o.isPaid && r.items == o.items && r.itemPrice == o.itemPrice && r.totalPrice == o.totalPrice
    ensures r.stripePaymentIntentId == o.stripePaymentIntentId && r.user == o.user && r.orderId == o.orderId
    ensures r.(stripeSessionId := o.stripeSessionId, paymentResult := o.paymentResult) == o
  {
    o.(stripeSessionId := Some(session), paymentResult := Some(PaymentResult(None, "pending", None, None)))
  }

  /** Lines 91-93: remember the session on the order and mark the payment pending.
      `session` is the id of the session the provider created, or None when
      that call threw. */
  function AttachSession(s: Store, key: Id, session: Option<Id>): (r: Outcome<Id>)
    requires key in s.orders
    ensures session.None? ==> r == Outcome(s, Refused(500, "Could not create checkout session"))
    ensures session.Some? ==> r.reply == Sent(200, session.value)
    ensures session.Some? ==> r.store == s.(orders := s.orders[key := WithSession(s.orders[key], session.value)])
  {
    match session
    case None => Outcome(s, Refused(500, "Could not create checkout session"))
    case Some(sid) => Outcome(s.(orders := s.orders[key := WithSession(s.orders[key], sid)]), Sent(200, sid))
  }

  /** Lines 46-56 and 91-93 for a new order: `Order.create` saves it under `newId`,
      then the session is attached to it. */
  function CreateAndAttach(s: Store, o: Order, newId: Id, session: Option<Id>): (r: Outcome<Id>)
    requires newId !in s.orders
    ensures r.store.products == s.products && r.store.users == s.users
    ensures r.store.orders.Keys == s.orders.Keys + {newId}
    ensures forall id :: id in s.orders ==> r.store.orders[id] == s.orders[id]
    ensures session.None? ==> r.store.orders[newId] == o && r.reply == Refused(500, "Could not create checkout session")
    ensures session.Some? ==> r.store.orders[newId] == WithSession(o, session.value) && r.reply == Sent(200, session.value)
  {
    AttachSession(s.(orders := s.orders[newId := o]), newId, session)
  }

  /** `createCheckoutSession`. An existing order named by `mongoOrderId` is
      used as it is; otherwise a new order is built from `items` under the
      store-assigned id `newId`, with `orderId || generatedOrderId` as its
      merchant id (the generated one stands for `order_${Date.now()}`) and
      `user || null` as its owner. The new order is saved before the
      provider is called, so it stays, unpaid, when that call fails. */
  function CreateCheckoutSession(s: Store, req: CheckoutRequest, newId: Id, generatedOrderId: string,
                                 session: Option<Id>): (r: Outcome<Id>)
    requires newId !in s.orders
    ensures r.store.products == s.products && r.store.users == s.users
    ensures session.None? ==> r.reply.Refused?
    ensures r.reply.Sent? ==> r.reply == Sent(200, session.value)
    // an existing order
    ensures Present(req.mongoOrderId) && req.mongoOrderId.value !in s.orders ==>
      r == Outcome(s, Refused(404, "Order not found"))
    ensures Present(req.mongoOrderId) && req.mongoOrderId.value in s.orders ==>
      var key := req.mongoOrderId.value;
      && (session.None? ==> r == Outcome(s, Refused(500, "Could not create checkout session")))
      && (session.Some? ==>
            && r.reply == Sent(200, session.value)
            && r.store.orders == s.orders[key := WithSession(s.orders[key], session.value)])
    // a new order from items
    ensures !Present(req.mongoOrderId) && (req.items.None? || |req.items.value| == 0) ==>
      r == Outcome(s, Refused(400, "items required to create order"))
    ensures !Present(req.mongoOrderId) && req.items.Some? && CheckoutItems(s.products, req.items.value).None? ==>
      r == Outcome(s, Refused(500, "Could not create checkout session"))
    ensures !Present(req.mongoOrderId) && req.items.Some? && |req.items.value| > 0
            && CheckoutItems(s.products, req.items.value).Some? ==>
      var items := CheckoutItems(s.products, req.items.value).value;
      var merchantId := if Present(req.orderId) then req.orderId.value else generatedOrderId;
      var o := NewCheckoutOrder(items, merchantId, FirstPresent(req.user, None));
      && r.store.orders.Keys == s.orders.Keys + {newId}
      && (forall id :: id in s.orders ==> r.store.orders[id] == s.orders[id])
      && (session.None? ==> r.store.orders[newId] == o && r.reply == Refused(500, "Could not create checkout session"))
      && (session.Some? ==> r.store.orders[newId] == WithSession(o, session.value) && r.reply == Sent(200, session.value))
    ensures !Present(req.mongoOrderId) && r.store != s ==>
      && req.items.Some? && CheckoutItems(s.products, req.items.value).Some?
      && newId in r.store.orders
      && var o := r.store.orders[newId];
         && o.items == CheckoutItems(s.products, req.items.value).value
         && !o.isPaid
         && o.itemPrice == Subtotal(o.items)
         && o.totalPrice == o.itemPrice as real
  {
    if Present(req.mongoOrderId) then
      var key := req.mongoOrderId.value;
      if key !in s.orders then Outcome(s, Refused(404, "Order not found"))
      else AttachSession(s, key, session)
    else if req.items.None? || |req.items.value| == 0 then
      Outcome(s, Refused(400, "items required to create order"))
    else
      match CheckoutItems(s.products, req.items.value)
      case None => Outcome(s, Refused(500, "Could not create checkout session"))
      case Some(items) =>
        var merchantId := if Present(req.orderId) then req.orderId.value else generatedOrderId;
        CreateAndAttach(s, NewCheckoutOrder(items, merchantId, FirstPresent(req.user, None)), newId, session)
  }
}

=== FILE: stripe_properties.dfy ===
/** Properties of payment finalization that relate several calls: the
    transactional and fallback paths agree, an aborted transaction leaves
    nothing behind, redelivery is absorbed, and however many times an event
    arrives the order is settled at most once. */
module StripeProperties {
  import opened Common
  import opened Store
  import opened Inventory
  import opened Stripe

  /** With no failure injected, committing the transaction and running the
      fallback alone produce the same store. */
  lemma FallbackMatchesTransaction(s: Store, key: Id, intent: Option<string>, raw: EventObject, now: int)
    ensures TransactionalPath(s, key, intent, raw, now, false) == Finished(FallbackPath(s, key, intent, raw, now, false))
  {
  }

  /** A transaction that throws leaves nothing of what it staged: either
      nothing was staged, or the whole copy is dropped and the outcome is
      exactly what the fallback does on the untouched store. */
  lemma AbortDiscardsStagedWrites(s: Store, intent: Option<string>, meta: map<string, string>,
                                  raw: EventObject, now: int, fallbackFails: bool)
    ensures FinalizeOrderPayment(s, intent, meta, raw, now, Infra(true, true, fallbackFails))
         == FinalizeOrderPayment(s, intent, meta, raw, now, Infra(false, false, fallbackFails))
  {
  }

  /** Whether the database offers transactions, and whether the transaction
      throws, makes no difference to the end state when the fallback works. */
  lemma FinalizeIndependentOfPath(s: Store, intent: Option<string>, meta: map<string, string>,
                                  raw: EventObject, now: int, i1: Infra, i2: Infra)
    requires Healthy(i1) && Healthy(i2)
    ensures FinalizeOrderPayment(s, intent, meta, raw, now, i1) == FinalizeOrderPayment(s, intent, meta, raw, now, i2)
  {
  }

  /** Once an event has been delivered successfully, a second delivery for
      the same order, with the same or any other intent id, changes nothing. */
  lemma SecondDeliveryIsNoOp(s: Store, meta: map<string, string>,
                             intent: Option<string>, raw: EventObject, now: int, infra: Infra,
                             intent2: Option<string>, raw2: EventObject, now2: int, infra2: Infra)
    requires OrderKey(meta).Some? && OrderKey(meta).value in s.orders && Healthy(infra)
    ensures var s1 := FinalizeOrderPayment(s, intent, meta, raw, now, infra);
            FinalizeOrderPayment(s1, intent2, meta, raw2, now2, infra2) == s1
  {
  }

  /** One attempt to deliver a payment-succeeded event for a fixed order. */
  datatype Attempt = Attempt(intent: Option<string>, raw: EventObject, now: int, infra: Infra)

  /** The store after the attempts are delivered one after another. */
  function Redeliver(s: Store, meta: map<string, string>, attempts: seq<Attempt>): Store
    decreases |attempts|
  {
    if attempts == [] then s
    else
      var a := attempts[0];
      Redeliver(FinalizeOrderPayment(s, a.intent, meta, a.raw, a.now, a.infra), meta, attempts[1..])
  }

  /** The first attempt in which the database lets finalization complete. */
  function FirstHealthy(attempts: seq<Attempt>): (r: Option<Attempt>)
    ensures r.Some? ==> r.value in attempts && Healthy(r.value.infra)
    ensures r.None? <==> forall i :: 0 <= i < |attempts| ==> !Healthy(attempts[i].infra)
    decreases |attempts|
  {
    if attempts == [] then None
    else if Healthy(attempts[0].infra) then Some(attempts[0])
    else
      var r := FirstHealthy(attempts[1..]);
      assert forall i :: 1 <= i < |attempts| ==> attempts[i] == attempts[1..][i - 1];
      r
  }

  /** A paid order absorbs any number of further deliveries. */
  lemma {:induction false} PaidOrderAbsorbsDeliveries(s: Store, meta: map<string, string>, attempts: seq<Attempt>)
    requires OrderKey(meta).Some? && OrderKey(meta).value in s.orders && s.orders[OrderKey(meta).value].isPaid
    ensures Redeliver(s, meta, attempts) == s
    decreases |attempts|
  {
    if attempts != [] {
      PaidOrderAbsorbsDeliveries(s, meta, attempts[1..]);
    }
  }

  /** Exactly-once settlement: however many deliveries arrive for an unpaid
      order, under whatever failures and intent ids, the end state is the
      initial store settled once, by the first delivery the database let
      through, or the initial store if none got through. In particular stock
      is decremented for the order's lines at most once. */
  lemma {:induction false} SettledAtMostOnce(s: Store, meta: map<string, string>, attempts: seq<Attempt>)
    requires OrderKey(meta).Some? && OrderKey(meta).value in s.orders && !s.orders[OrderKey(meta).value].isPaid
    ensures Redeliver(s, meta, attempts)
         == match FirstHealthy(attempts)
            case None => s
            case Some(a) => Settled(s, OrderKey(meta).value, a.intent, a.raw, a.now)
    decreases |attempts|
  {
    if attempts != [] {
      var a := attempts[0];
      var key := OrderKey(meta).value;
      if Healthy(a.infra) {
        var s1 := Settled(s, key, a.intent, a.raw, a.now);
        PaidOrderAbsorbsDeliveries(s1, meta, attempts[1..]);
      } else {
        SettledAtMostOnce(s, meta, attempts[1..]);
      }
    }
  }

  /** Consequence for the catalog: after any number of deliveries the stock
      either is untouched or has had the order's decrements applied once. */
  lemma StockDecrementedAtMostOnce(s: Store, meta: map<string, string>, attempts: seq<Attempt>)
    requires OrderKey(meta).Some? && OrderKey(meta).value in s.orders && !s.orders[OrderKey(meta).value].isPaid
    ensures var r := Redeliver(s, meta, attempts);
            r.products == s.products || r.products == DecrementAll(s.products, s.orders[OrderKey(meta).value].items)
  {
    SettledAtMostOnce(s, meta, attempts);
  }

  /** One delivery of any kind of event. */
  datatype Delivery = Delivery(verified: bool, ev: Event, now: int, infra: Infra)

  function Replay(s: Store, ds: seq<Delivery>): Store
    decreases |ds|
  {
    if ds == [] then s
    else Replay(HandleWebhook(s, ds[0].verified, ds[0].ev, ds[0].now, ds[0].infra).store, ds[1..])
  }

  /** No webhook delivery drives a stock counter below zero. */
  lemma WebhookKeepsStockNonNegative(s: Store, verified: bool, ev: Event, now: int, infra: Infra)
    requires StockNonNegative(s.products)
    ensures StockNonNegative(HandleWebhook(s, verified, ev, now, infra).store.products)
  {
  }

  /** Nor does any sequence of deliveries. */
  lemma {:induction false} ReplayKeepsStockNonNegative(s: Store, ds: seq<Delivery>)
    requires StockNonNegative(s.products)
    ensures StockNonNegative(Replay(s, ds).products)
    decreases |ds|
  {
    if ds != [] {
      var d := ds[0];
      WebhookKeepsStockNonNegative(s, d.verified, d.ev, d.now, d.infra);
      ReplayKeepsStockNonNegative(HandleWebhook(s, d.verified, d.ev, d.now, d.infra).store, ds[1..]);
    }
  }

  /** Lines that cannot be served do not hold up the payment: in an order of
      any length, a product each of whose lines asks for more than its stock
      keeps its stock, and the order is still marked paid. */
  lemma OversoldLineStillFinalizes(s: Store, intent: Option<string>, meta: map<string, string>,
                                   raw: EventObject, now: int, infra: Infra, id: Id)
    requires OrderKey(meta).Some? && OrderKey(meta).value in s.orders && !s.orders[OrderKey(meta).value].isPaid
    requires Healthy(infra)
    requires id in s.products
    requires var items := s.orders[OrderKey(meta).value].items;
             forall i :: 0 <= i < |items| && items[i].product == id ==> items[i].qty > s.products[id].countInStock
    ensures var r := FinalizeOrderPayment(s, intent, meta, raw, now, infra);
            r.orders[OrderKey(meta).value].isPaid && r.products[id] == s.products[id]
  {
    UnservableProductUntouched(s.products, s.orders[OrderKey(meta).value].items, id);
  }

  /** Checkout and payment fit together: the order a checkout creates carries
      the metadata the session is given (line 85), and the payment event for
      that session settles exactly that order, charging the stock for the
      checkout's lines. */
  lemma CheckoutThenPaymentSettles(s: Store, req: CheckoutRequest, newId: Id, generatedOrderId: string, sid: Id,
                                   intent: Option<string>, raw: EventObject, now: int, infra: Infra)
    requires newId !in s.orders && newId != ""
    requires !Present(req.mongoOrderId) && req.items.Some? && |req.items.value| > 0
    requires CheckoutItems(s.products, req.items.value).Some?
    requires Healthy(infra)
    ensures var s1 := CreateCheckoutSession(s, req, newId, generatedOrderId, Some(sid)).store;
            var merchantId := if Present(req.orderId) then req.orderId.value else generatedOrderId;
            var meta := map["orderId" := merchantId, "mongoOrderId" := newId];
            var s2 := FinalizeOrderPayment(s1, intent, meta, raw, now, infra);
            && s2 == Settled(s1, newId, intent, raw, now)
            && s2.orders[newId].isPaid
            && s2.products == DecrementAll(s.products, CheckoutItems(s.products, req.items.value).value)
  {
    var merchantId := if Present(req.orderId) then req.orderId.value else generatedOrderId;
    var meta := map["orderId" := merchantId, "mongoOrderId" := newId];
    assert Get(meta, "mongoOrderId") == Some(newId);
    assert OrderKey(meta) == Some(newId);
  }
}

/** The webhook scenario of the repository's integration test, as a fact
    about the model: a checkout-session-completed event for an order of two
    units of a product with four in stock. */
module StripeScenario {
  import opened Common
  import opened Store
  import opened Stripe

  /** The order is paid under the session's payment intent and the stock goes
      from 4 to 2; a redelivery of the same event leaves it at 2. */
  lemma CheckoutCompletedScenario(infra: Infra, infra2: Infra, now: int, now2: int)
    requires Healthy(infra)
    ensures
      var product := Product("Sample Product", 50, "d", "/images/sample.jpg", "Brand", "general", 4, [], 0);
      var line := OrderItem("p1", product.name, product.image, 50, 2);
      var order := Order(Some("u1"), None, [line], 100, 0.0, 0, 100.0, false, None, None, None, None, None, false, None);
      var s := Store(map["o1" := order], map["p1" := product], map[]);
      var session := EventObject(Some("pi_test_123"), Some("pi_test_123"), Some(map["mongoOrderId" := "o1"]));
      var ev := Event(Some(CheckoutSessionCompleted), Some(session));
      var r := HandleWebhook(s, true, ev, now, infra);
      var r2 := HandleWebhook(r.store, true, ev, now2, infra2);
      && r.status == 200
      && r.store.orders["o1"].paymentResult.Some?
      && r.store.orders["o1"].paymentResult.value.status == "paid"
      && r.store.orders["o1"].stripePaymentIntentId == Some("pi_test_123")
      && r.store.products["p1"].countInStock == 2
      && r2 == WebhookReply(r.store, 200)
  {
    var product := Product("Sample Product", 50, "d", "/images/sample.jpg", "Brand", "general", 4, [], 0);
    var line := OrderItem("p1", product.name, product.image, 50, 2);
    var order := Order(Some("u1"), None, [line], 100, 0.0, 0, 100.0, false, None, None, None, None, None, false, None);
    var s := Store(map["o1" := order], map["p1" := product], map[]);
    var meta := map["mongoOrderId" := "o1"];
    assert OrderKey(meta) == Some("o1");
    assert [line][1..] == [];
  }
}

=== FILE: users.dfy ===
/** The user controller's rules: registration refuses a taken email, the
    wishlist holds each product at most once, an admin cannot delete their
    own account, and the admin update keeps fields the request leaves out. */
module Users {
  import opened Common
  import opened Store

  /** Some user already has this email (`User.findOne({email})`). */
  predicate EmailTaken(users: map<Id, User>, email: string) {
    exists id :: id in users && users[id].email == email
  }

  /** No two accounts share an email. */
  predicate EmailsDistinct(users: map<Id, User>) {
    forall a, b :: a in users && b in users && users[a].email == users[b].email ==> a == b
  }

  /** `registerUser`. `newId` is the id the database gives the new account;
      the password is stored as given (hashing is not modelled). */
  function RegisterUser(s: Store, name: string, email: string, password: string, newId: Id): (r: Outcome<Id>)
    requires newId !in s.users
    ensures EmailTaken(s.users, email) ==> r == Outcome(s, Thrown(400, "User already exists."))
    ensures !EmailTaken(s.users, email) ==>
      && r.reply == Sent(201, newId)
      && r.store.users == s.users[newId := User(name, email, password, false, [])]
    ensures r.store.orders == s.orders && r.store.products == s.products
    ensures forall id :: id in s.users ==> id in r.store.users && r.store.users[id] == s.users[id]
    ensures EmailsDistinct(s.users) ==> EmailsDistinct(r.store.users)
  {
    if EmailTaken(s.users, email) then
      Outcome(s, Thrown(400, "User already exists."))
    else
      Outcome(s.(users := s.users[newId := User(name, email, password, false, [])]), Sent(201, newId))
  }

  /** Registering twice with the same email creates one account: the second
      attempt is refused and changes nothing. */
  lemma SecondRegistrationRefused(s: Store, name: string, email: string, password: string, newId: Id,
                                  name2: string, password2: string, newId2: Id)
    requires newId !in s.users && !EmailTaken(s.users, email)
    requires newId2 !in RegisterUser(s, name, email, password, newId).store.users
    ensures var s1 := RegisterUser(s, name, email, password, newId).store;
            RegisterUser(s1, name2, email, password2, newId2) == Outcome(s1, Thrown(400, "User already exists."))
  {
    var s1 := RegisterUser(s, name, email, password, newId).store;
    assert newId in s1.users && s1.users[newId].email == email;
  }

  /** No product appears twice in the list. */
  predicate NoDuplicates(xs: seq<Id>) {
    forall i, j :: 0 <= i < j < |xs| ==> xs[i] != xs[j]
  }

  /** Every user's wishlist is free of duplicates. */
  ghost predicate WishlistsDistinct(users: map<Id, User>) {
    forall id :: id in users ==> NoDuplicates(users[id].wishlist)
  }

  /** `addToWishlist` for the caller `uid`. */
  function AddToWishlist(s: Store, uid: Id, productId: Id): (r: Outcome<seq<Id>>)
    ensures uid !in s.users ==> r == Outcome(s, Thrown(404, "User not found."))
    ensures uid in s.users && productId !in s.products ==> r == Outcome(s, Thrown(404, "Product does not exist."))
    ensures uid in s.users && productId in s.products && productId in s.users[uid].wishlist ==>
      r == Outcome(s, Thrown(400, "Product already added to the wishlist."))
    ensures r.reply.Sent? ==>
      && uid in s.users && productId in s.products && productId !in s.users[uid].wishlist
      && r.store.users == s.users[uid := s.users[uid].(wishlist := s.users[uid].wishlist + [productId])]
      && r.reply == Sent(200, r.store.users[uid].wishlist)
    ensures uid in s.users && productId in s.products && productId !in s.users[uid].wishlist ==> r.reply.Sent?
    ensures !r.reply.Sent? ==> r.store == s
    ensures r.store.orders == s.orders && r.store.products == s.products
    ensures WishlistsDistinct(s.users) ==> WishlistsDistinct(r.store.users)
  {
    if uid !in s.users then
      Outcome(s, Thrown(404, "User not found."))
    else if productId !in s.products then
      Outcome(s, Thrown(404, "Product does not exist."))
    else
      var u := s.users[uid];
      if productId in u.wishlist then
        Outcome(s, Thrown(400, "Product already added to the wishlist."))
      else
        var u' := u.(wishlist := u.wishlist + [productId]);
        Outcome(s.(users := s.users[uid := u']), Sent(200, u'.wishlist))
  }

  /** `wishlist.pull(productId)`: every occurrence removed, the rest in order. */
  function Pull(xs: seq<Id>, x: Id): (r: seq<Id>)
    ensures x !in r
    ensures forall y :: y != x ==> (y in r <==> y in xs)
    ensures |r| <= |xs|
    ensures x !in xs ==> r == xs
    ensures NoDuplicates(xs) ==> NoDuplicates(r)
    decreases |xs|
  {
    if xs == [] then []
    else
      var rest := Pull(xs[1..], x);
      assert forall y :: y in xs[1..] ==> y in xs;
      if xs[0] == x then rest
      else
        assert NoDuplicates(xs) ==> xs[0] !in xs[1..];
        [xs[0]] + rest
  }

  /** Removal works piecewise: on a concatenation it is the concatenation
      of the removals. */
  lemma {:induction false} PullDistributes(a: seq<Id>, b: seq<Id>, x: Id)
    ensures Pull(a + b, x) == Pull(a, x) + Pull(b, x)
    decreases |a|
  {
    if a == [] {
      assert a + b == b;
    } else {
      assert (a + b)[1..] == a[1..] + b;
      PullDistributes(a[1..], b, x);
    }
  }

  /** Removing a product keeps the other entries in their relative order:
      two kept entries at positions i < j reappear at positions p < q. */
  lemma PullKeepsOrder(xs: seq<Id>, x: Id, i: int, j: int)
    requires 0 <= i < j < |xs| && xs[i] != x && xs[j] != x
    ensures exists p, q :: 0 <= p < q < |Pull(xs, x)| && Pull(xs, x)[p] == xs[i] && Pull(xs, x)[q] == xs[j]
  {
    var a, b, c := xs[..i], xs[i + 1..j], xs[j + 1..];
    assert xs == a + ([xs[i]] + (b + ([xs[j]] + c)));
    PullDistributes(a, [xs[i]] + (b + ([xs[j]] + c)), x);
    PullDistributes([xs[i]], b + ([xs[j]] + c), x);
    PullDistributes(b, [xs[j]] + c, x);
    PullDistributes([xs[j]], c, x);
    assert Pull([xs[i]], x) == [xs[i]] by { assert [xs[i]][1..] == []; }
    assert Pull([xs[j]], x) == [xs[j]] by { assert [xs[j]][1..] == []; }
    var r := Pull(xs, x);
    assert r == Pull(a, x) + ([xs[i]] + (Pull(b, x) + ([xs[j]] + Pull(c, x))));
    var p := |Pull(a, x)|;
    var q := p + 1 + |Pull(b, x)|;
    assert r[p] == xs[i] && r[q] == xs[j];
  }

  /** `removeFromWishlist` for the caller `uid`. A missing user is a 400 here. */
  function RemoveFromWishlist(s: Store, uid: Id, productId: Id): (r: Outcome<seq<Id>>)
    ensures uid !in s.users ==> r == Outcome(s, Thrown(400, "User not found."))
    ensures uid in s.users ==>
      && r.store.users.Keys == s.users.Keys
      && r.store.users[uid].wishlist == Pull(s.users[uid].wishlist, productId)
      && r.reply == Sent(200, r.store.users[uid].wishlist)
      && productId !in r.store.users[uid].wishlist
      && (forall y :: y != productId ==> (y in r.store.users[uid].wishlist <==> y in s.users[uid].wishlist))
      && r.store.users[uid] == s.users[uid].(wishlist := r.store.users[uid].wishlist)
    ensures forall id :: id in s.users && id != uid ==> id in r.store.users && r.store.users[id] == s.users[id]
    ensures r.store.orders == s.orders && r.store.products == s.products
    ensures WishlistsDistinct(s.users) ==> WishlistsDistinct(r.store.users)
  {
    if uid !in s.users then
      Outcome(s, Thrown(400, "User not found."))
    else
      var u' := s.users[uid].(wishlist := Pull(s.users[uid].wishlist, productId));
      Outcome(s.(users := s.users[uid := u']), Sent(200, u'.wishlist))
  }

  /** Adding a product and removing it again restores the wishlist. */
  lemma {:induction false} AddThenRemoveRestores(s: Store, uid: Id, productId: Id)
    requires uid in s.users && productId in s.products && productId !in s.users[uid].wishlist
    ensures var added := AddToWishlist(s, uid, productId).store;
            RemoveFromWishlist(added, uid, productId).store == s
  {
    var xs := s.users[uid].wishlist;
    PullAppend(xs, productId);
    assert s.users[uid := s.users[uid]] == s.users;
  }

  lemma {:induction false} PullAppend(xs: seq<Id>, x: Id)
    requires x !in xs
    ensures Pull(xs + [x], x) == xs
    decreases |xs|
  {
    if xs == [] {
      assert [x][1..] == [];
    } else {
      assert (xs + [x])[1..] == xs[1..] + [x];
      PullAppend(xs[1..], x);
    }
  }

  /** `deleteUserByAdmin`, called by the admin `callerId`. */
  function DeleteUserByAdmin(s: Store, callerId: Id, target: Id): (r: Outcome<string>)
    ensures target !in s.users ==> r == Outcome(s, Thrown(404, "User not found."))
    ensures target in s.users && target == callerId ==>
      r == Outcome(s, Thrown(400, "Admins cannot delete themselves via this route."))
    ensures r.reply.Sent? <==> target in s.users && target != callerId
    ensures r.reply.Sent? ==> r.store.users == s.users - {target} && r.reply.status == 200
    ensures r.store.orders == s.orders && r.store.products == s.products
    ensures callerId in s.users ==> callerId in r.store.users
  {
    if target !in s.users then
      Outcome(s, Thrown(404, "User not found."))
    else if callerId == target then
      Outcome(s, Thrown(400, "Admins cannot delete themselves via this route."))
    else
      Outcome(s.(users := s.users - {target}), Sent(200, "User deleted successfully."))
  }

  /** The body of an admin update: `name` and `email` are strings or absent,
      `isAdmin` any JSON value. */
  datatype UserPatch = UserPatch(name: Option<string>, email: Option<string>, isAdmin: JsValue)

  /** The fields after the merge of lines 116-118. */
  function MergeUser(u: User, patch: UserPatch): (r: User)
    ensures r.name == (if Present(patch.name) then patch.name.value else u.name)
    ensures r.email == (if Present(patch.email) then patch.email.value else u.email)
    ensures patch.isAdmin.Missing? ==> r.isAdmin == u.isAdmin
    ensures !patch.isAdmin.Missing? ==> r.isAdmin == Truthy(patch.isAdmin)
    ensures r.password == u.password && r.wishlist == u.wishlist
  {
    u.(name := OrKeep(patch.name, u.name),
       email := OrKeep(patch.email, u.email),
       isAdmin := if patch.isAdmin.Missing? then u.isAdmin else Truthy(patch.isAdmin))
  }

  /** Sending the same update twice has the effect of sending it once. */
  lemma MergeUserIdempotent(u: User, patch: UserPatch)
    ensures MergeUser(MergeUser(u, patch), patch) == MergeUser(u, patch)
  {
  }

  /** An empty request body changes nothing. */
  lemma EmptyPatchIsIdentity(u: User)
    ensures MergeUser(u, UserPatch(None, None, Missing)) == u
  {
  }

  /** The fields of a user that `updateUserByAdmin` sends back: no password
      and no wishlist. */
  datatype UserView = UserView(id: Id, name: string, email: string, isAdmin: bool)

  /** `updateUserByAdmin`. */
  function UpdateUserByAdmin(s: Store, id: Id, patch: UserPatch): (r: Outcome<UserView>)
    ensures id !in s.users ==> r == Outcome(s, Thrown(404, "User not found."))
    ensures id in s.users ==>
      && r.store.users == s.users[id := MergeUser(s.users[id], patch)]
      && var u := r.store.users[id];
         r.reply == Sent(200, UserView(id, u.name, u.email, u.isAdmin))
    ensures r.store.orders == s.orders && r.store.products == s.products
  {
    if id in s.users then
      var u' := MergeUser(s.users[id], patch);
      Outcome(s.(users := s.users[id := u']), Sent(200, UserView(id, u'.name, u'.email, u'.isAdmin)))
    else
      Outcome(s, Thrown(404, "User not found."))
  }
}
